=== FILE: README.md ===
# Dashboard use case — a Dafny model

This project models the dashboard use case of the platform's API server
(`internal/usecase/dashboard.go`). It covers four things.

- **Charts** (`GetCharts`, `getChartFromPrometheus`). The organization must
  exist. Then each selected chart type is answered in turn:
  - the CPU, memory, pod and traffic types run one Prometheus range query
    over a window set by `duration`, stepped by `interval`;
  - the answer is reshaped onto one x-axis shared by all series, with one
    row of cells per cluster (`getChartYValue`);
  - each row is named after its cluster through a cached lookup
    (`getClusterNameFromId`);
  - `POD_CALENDAR` checks the requested year and month, fetches the month's
    pod-restart alerts, and walks a 30-day window day by day (`rangeDate`),
    counting the alerts of each day up to today.
- **Stack cards** (`GetStacks`). Two instant queries give the memory, disk
  and CPU figures of each cluster (`getStackMemoryDisk`, `getStackCpu`).
  Each non-empty figure gets a " %" suffix.
- **Resource totals** (`GetResources`): the number of live stacks, and the
  CPU cores, memory and storage summed over the clusters with Go's 64-bit
  `int`.
- **The endpoint lookup** (`getThanosUrl`): the Thanos query address of the
  organization's primary cluster, kept in the same process-wide cache.

Modules:

- `Results`: `Option`, `Result` and the errors the use case reports.
- `Decimal`: `strconv.Itoa` and `strconv.Atoi`, including Atoi's clamped
  value on a range error, and the 64-bit wrap-around.
- `Civil`: proleptic Gregorian day numbers and `time.Date`'s carrying of an
  out-of-range month into the year, on unbounded integers.
- `Metrics`: samples, series, the chart shape and `math.Round`.
- `Resolvers`: the cache and the two cached lookups.
- `SeriesAligner`: the x-axis and the y rows.
- `Calendar`: the `POD_CALENDAR` branch.
- `Utilization`: the stack-card figures.
- `Resources`: the totals.
- `Dashboard`: the four entry points.

Parameters stand for everything outside the module:

- The repositories and the Kubernetes API are a `Registry` value.
- The metrics backend and the alert store are functions in a `Backend`.
  `None` means the call failed.
- Go's `strconv.ParseFloat` and the `%f` and `%0.2f` renderings are a
  `FloatOps` value.
- `time.Now()` is a `Clock`: the Unix second and the local calendar date.

A behaviour of the code that the model keeps: a value `strconv.Atoi`
rejects as out of range still counts in `getStackMemoryDisk`. Atoi returns
the clamped bound together with its error (`Decimal.AtoiRange`), and that
function ignores the error. `GetResources`, by contrast, skips every value
Atoi rejects.

## Model

| member | source | states |
|---|---|---|
| Dashboard.GetCharts | internal/usecase/dashboard.go:50-70 | An unknown organization is `OrganizationNotFound` and leaves the cache alone. For a known organization the request succeeds exactly when no selected chart fails, and otherwise fails with the error of the first selected type whose chart fails (`FirstChartError`). On success there is one chart per selected type, in the order of the type list, each carrying its type and the organization. The cache only gains entries. |
| Dashboard.Selected | internal/usecase/dashboard.go:56-59 | Selecting every type keeps the whole list. Every type in the selection is one the request asks for. The selection is never longer than the list. |
| Dashboard.SelectedAppend | internal/usecase/dashboard.go:56-59 | The selection keeps the order of the list: selecting from two lists joined is selecting from each in turn. |
| Dashboard.SelectedCount | internal/usecase/dashboard.go:56-66 | There is one selected type per listed position that matches the request, so each matching listed type gets exactly one chart. |
| Dashboard.SelectedMembers | internal/usecase/dashboard.go:56-59 | A type is selected exactly when it is in the list and the request asks for all types or for that one. |
| Dashboard.SelectedChart | internal/usecase/dashboard.go:61-66 | One loop step for the i-th selected type. A chart carries that type and the organization. An error is the first error of the types from i on. A success leaves that first error to the types after i. The cache only gains entries and keeps its endpoint answer. |
| Dashboard.FirstChartErrorSpec | internal/usecase/dashboard.go:60-65 | The first error of a type list is `None` exactly when no type's chart fails. Otherwise it is the error of a failing type all of whose predecessors succeed. |
| Dashboard.GetChart | internal/usecase/dashboard.go:222-525 | The endpoint lookup comes first, and its failure is `InvalidPrimaryStack` with the cache unchanged. An unknown type is `NoData`. A range type gives the range answer. `POD_CALENDAR` gives the calendar answer. The call fails exactly when `ChartError` names an error, and then with that error: a function of the endpoint answer, the type, the backend and the request alone. A chart carries the type and organization it was asked for. The cache only gains entries, and the endpoint lookup answers afterwards what it answered before. |
| Dashboard.ChartAnswerFails | internal/usecase/dashboard.go:222-525 | Every answer the three branches allow fails exactly with `ChartError`. The name lookups of a range chart leave the endpoint answer as it was. |
| Dashboard.DurationSeconds | internal/usecase/dashboard.go:237-247 | "1h", "7d" and "30d" are one hour, one week and thirty days. Every other string, "1d" included, is one day. Each equivalence holds in both directions. |
| Dashboard.IntervalSeconds | internal/usecase/dashboard.go:249-257 | "1d" is one day and "7h" is seven days. Every other string, "1h" included, is one hour. Each equivalence holds in both directions. |
| Dashboard.SevenHourStepIsAWeek | internal/usecase/dashboard.go:255-256 | The "7h" step equals the "7d" window, not seven one-hour steps. |
| Dashboard.RangeExpr | internal/usecase/dashboard.go:259-273 | Exactly the CPU, memory, pod and traffic types have a range query expression. |
| Dashboard.RangeFor | internal/usecase/dashboard.go:473 | The query window ends now and spans the duration. Its step is the interval, and the step is positive. |
| Dashboard.RangeChart | internal/usecase/dashboard.go:478-523 | The chart has the shared x-axis of the answer and one series per answered series. Series i is named by the i-th name lookup. It has one cell per label, and the cell at label j is `getChartYValue` of that series at j, scaled by 100 exactly for CPU and memory charts. The chart keeps the request's type, organization, duration and interval. The cache is the one the name lookups leave, so it only gains entries. |
| Dashboard.RangeAnswer | internal/usecase/dashboard.go:473-523 | A failed range query is `QueryFailed` and leaves the cache alone. Otherwise the answer is the `RangeChart` of the answered series: the shared x-axis, one series per answered series with its looked-up name and its cells, and the requested duration and interval. The cache is the one the name lookups leave. |
| Dashboard.CalendarChart | internal/usecase/dashboard.go:371-468 | A future year or month is an error. A failed alert fetch is `QueryFailed`. Otherwise the chart is the calendar of the window and carries the request's year and month. |
| Dashboard.StackCards | internal/usecase/dashboard.go:88-127 | A failed memory/disk query is `QueryFailed`, and so is a failed CPU query after a successful memory/disk query. Success holds exactly when both queries answered and every cluster's application groups could be listed. Card k is then the card of cluster k, built from both answers. Any other failure is `AppGroupsUnavailable`. |
| Dashboard.GetStacks | internal/usecase/dashboard.go:72-134 | A failed cluster listing comes first and a failed endpoint lookup second; both leave the cache alone. After both succeed, the cache is the lookup's and the answer is the card answer at the resolved endpoint: the same query errors, success condition, group-listing error and cards as `StackCards`. On success there is one card per listed cluster, in listing order, which is the order before Go's final sort. |
| Dashboard.GetResources | internal/usecase/dashboard.go:136-220 | A failed endpoint lookup is `InvalidPrimaryStack`. After a successful lookup, a failed cluster listing is `ClustersUnavailable`. After both succeed, any failed query is `QueryFailed`. Success holds exactly when all of them answered, and the card is then `Resources.Card` of the answers. The cache is the lookup's. |
| Resolvers.FetchThanosUrl | internal/usecase/dashboard.go:534-566 | Success holds exactly when the organization exists and has a primary cluster, a client can be built for that cluster, a query service exists, and that service is a LoadBalancer. An endpoint is composed exactly when the service has both an ingress and a port. |
| Resolvers.QueryServiceOf | internal/usecase/dashboard.go:548-554 | The query frontend is used when it exists. The plain query service is used otherwise. There is no service when neither exists. |
| Resolvers.ResolveThanosUrl | internal/usecase/dashboard.go:527-569 | A cache hit answers the cached endpoint and changes nothing. A miss answers the fresh lookup. A miss that composes an endpoint stores it at the organization's key. The cache changes only then, and only at that key. An error never changes the cache. |
| Resolvers.ResolveThanosUrlIdempotent | internal/usecase/dashboard.go:527-569 | Resolving twice answers the same as resolving once and leaves the same cache. |
| Resolvers.CachedUrlIsFresh | internal/usecase/dashboard.go:529-532 | With a coherent cache and an unchanged registry, a lookup answers as a fresh lookup would. The cache stays coherent after the lookup and after any entries expire. |
| Resolvers.ResolveClusterName | internal/usecase/dashboard.go:637-652 | A hit answers the cached name. A miss answers the registry's name and caches it. An unknown cluster is `ClusterNotFound` and writes nothing. |
| Resolvers.SeriesName | internal/usecase/dashboard.go:502-505 | A cached name is used as is, and the cache is unchanged. A miss for a cluster the registry knows uses and caches the registry's name. A miss for an unknown cluster uses the raw id and writes nothing. |
| Resolvers.SeriesNameKeepsEndpointEntry | internal/usecase/dashboard.go:502-505 | A series-name lookup leaves the organization's endpoint entry as it was. |
| Resolvers.EndpointEntryDecides | internal/usecase/dashboard.go:527-532 | Two caches that agree on the organization's endpoint entry get the same endpoint answer. |
| Resolvers.SeriesNameCoherent | internal/usecase/dashboard.go:502-505 | With a coherent name cache, a series is labelled with the registry's name of its cluster, or with the raw id when the registry does not know the cluster. The cache stays coherent. |
| Resolvers.KeySpacesDisjoint | internal/usecase/dashboard.go:528-529 | An endpoint key never equals a cluster-name key, so the two lookups never overwrite each other's entries. |
| Resolvers.ClusterNameKeyInjective | internal/usecase/dashboard.go:638-639 | Different cluster ids have different cache keys. |
| Resolvers.NameLookupKeepsEndpoint | internal/usecase/dashboard.go:502 | A cluster-name lookup never changes what the endpoint lookup answers. |
| Resolvers.LookupsOnlyAdd | internal/usecase/dashboard.go:565 | Neither lookup drops or overwrites an entry. Each lookup adds at most its own key. |
| Resolvers.ExtendsTransitive | internal/usecase/dashboard.go:565 | "Only gains entries" composes across successive lookups. |
| SeriesAligner.SharedXAxisSpec | internal/usecase/dashboard.go:478-488 | The x-axis has no repeats. It holds the rounded label of every point of every series, and only those, in first-seen order. Its length is the number of distinct labels. |
| SeriesAligner.BuildXAxis | internal/usecase/dashboard.go:479-488 | The loop builds exactly the shared x-axis. |
| SeriesAligner.DedupSpec | internal/usecase/dashboard.go:484-486 | Appending only labels not yet present gives a list with no repeats. That list has the same members as the input, in first-occurrence order. |
| SeriesAligner.FlattenMembers | internal/usecase/dashboard.go:480-483 | A label occurs in the flattened answer exactly when some point of some series rounds to it. |
| SeriesAligner.ChartYValue | internal/usecase/dashboard.go:571-586 | The scan stops at the first point whose value does not parse or whose label matches. That point gives "" if its value does not parse, and otherwise its value, times 100 for a percentage chart, rendered with `%f`. A scan that never stops, and a series with no point at the label, both give "". |
| SeriesAligner.AlignedChart | internal/usecase/dashboard.go:478-512 | The chart has the shared x-axis and one row per series, in answer order. Each row has one cell per label, and that cell is `getChartYValue` of the series at the label. Row i is named by the i-th of the successive name lookups, and the cache is the one they leave. The cache only gains entries. |
| SeriesAligner.SeriesLabelsKeepEndpointEntry | internal/usecase/dashboard.go:501-505 | Naming all series in turn leaves the organization's endpoint entry as it was, present or absent. |
| SeriesAligner.GapsAreEmpty | internal/usecase/dashboard.go:494-499 | A series with no point at an x-axis label shows "" there, not zero. |
| SeriesAligner.ChartLabels | internal/usecase/dashboard.go:502-510 | With a coherent name cache, each row is named after its cluster as the registry knows it, or after the raw id. The cache stays coherent. |
| SeriesAligner.SeriesLabelsCoherent | internal/usecase/dashboard.go:502-505 | Labelling all series in turn keeps the name cache coherent. Each label is the registry's name or the raw id. |
| Calendar.CheckRequest | internal/usecase/dashboard.go:377-381 | A later year is `InvalidYear`. The same year with a later month is `InvalidMonth`. Anything else passes. Each case holds in both directions. |
| Calendar.AcceptsExactlyPastMonths | internal/usecase/dashboard.go:374-381 | For a month from 1 to 12, the guard accepts exactly the months whose first day is not after today. |
| Calendar.OutOfRangeMonthPassesGuard | internal/usecase/dashboard.go:373-381 | The guard reads the month before `time.Date` normalises it. Month 25 of last year passes, although its window starts next January, after today. |
| Calendar.Advance | internal/usecase/dashboard.go:660-667 | Each call returns the next day and moves on. Past the end it returns Go's zero time and stays put. |
| Calendar.RangeDateYields | internal/usecase/dashboard.go:654-668 | The k-th call returns `start + k` while that is not after `end`, and the zero time afterwards. Both ends are included. |
| Calendar.Buckets | internal/usecase/dashboard.go:391-415 | There is one bucket per walked day: all 31 days of the window, cut short only if the zero time's own day is walked. Each bucket is labelled with its UTC midnight in Unix seconds. Its cell is the decimal count of that day's alerts, or "" exactly when the day is after today. |
| Calendar.CountAlerts | internal/usecase/dashboard.go:402-408 | The inner loop counts the alerts created on the day. |
| Calendar.CountOnIsMatchingAlerts | internal/usecase/dashboard.go:402-408 | The count equals the number of alerts whose date is that day. |
| Calendar.WindowMissesZeroTime | internal/usecase/dashboard.go:393-395 | Only a window starting on 0001-01-01 meets the zero-time sentinel, and it gets no buckets. Every other window gets 31. |
| Calendar.PodCalendar | internal/usecase/dashboard.go:371-421 | A future month is rejected before the alert store is asked. A failed fetch is `QueryFailed`. Otherwise there is one `podRestartCount` series over the bucket axis. |
| Civil.DateOrder | internal/usecase/dashboard.go:401 | Comparing `2006-01-02` strings orders dates the way their day numbers do, and equal strings are the same day. |
| Civil.NormalizeMonth | internal/usecase/dashboard.go:374 | `time.Date` carries an out-of-range month into the year, giving a month from 1 to 12 at the same absolute month. The arithmetic is on unbounded integers; Go's 64-bit wrap is left out. |
| Civil.ZeroTimeIsYearOne | internal/usecase/dashboard.go:393 | Go's zero time falls on the first of January of year 1. |
| Decimal.Atoi | internal/usecase/dashboard.go:173 | An exact result is within int64. A range error carries the bound on the side of its sign: MinInt64 after a leading '-', MaxInt64 otherwise. |
| Decimal.AtoiRange | internal/usecase/dashboard.go:173 | An integer literal outside int64 is a range error, never a syntax error, and carries the bound on its side. This is why an overflowing reading still counts in `getStackMemoryDisk`. |
| Decimal.AtoiExact | internal/usecase/dashboard.go:173-176 | Atoi accepts exactly the optionally signed decimal literals within int64, and returns their value. |
| Decimal.AtoiItoa | internal/usecase/dashboard.go:173 | Atoi is the inverse of Itoa on int64: a printed int64 parses back to itself. It is the partner of the decimal labels that Itoa prints for the x-axis (line 484). |
| Decimal.ItoaInjective | internal/usecase/dashboard.go:484 | Two integers print the same exactly when they are equal, so label matching is timestamp matching. |
| Decimal.Wrap64 | internal/usecase/dashboard.go:178 | The result is within int64, differs from the input by a multiple of 2^64, and an int64 value is unchanged. These pin it as the two's-complement wrap. |
| Decimal.WrapAdd | internal/usecase/dashboard.go:178 | Wrapping after every addition is the same as wrapping once at the end. |
| Metrics.Round | internal/usecase/dashboard.go:482 | The result is within one half of the input. Ties round away from zero. |
| Utilization.LastReading | internal/usecase/dashboard.go:595-609 | The reading is the Atoi value, errors ignored, of the last sample of the cluster with that metric name. It is 0 when there is none. |
| Utilization.StackMemoryDisk | internal/usecase/dashboard.go:588-622 | The loop ends with the last readings. The memory figure is "" unless machine memory is positive, and the disk figure is "" unless capacity is positive. |
| Utilization.MemoryText | internal/usecase/dashboard.go:611-614 | "" when machine memory is not positive. Otherwise the used share of memory as a percentage, rendered with two decimals. |
| Utilization.DiskText | internal/usecase/dashboard.go:616-619 | "" when capacity is not positive. Otherwise the used share of capacity as a percentage, rendered with two decimals. |
| Utilization.StackCpu | internal/usecase/dashboard.go:624-635 | The first sample of the cluster decides: its parsed value with two decimals, or "" when it does not parse. The figure is "" when the cluster has no sample. |
| Utilization.WithPercentSign | internal/usecase/dashboard.go:112-120 | An empty figure stays empty. A non-empty one gets " %" appended. |
| Utilization.UsageOf | internal/usecase/dashboard.go:109-124 | A card shows a memory figure exactly when machine memory is positive, and a storage figure exactly when capacity is positive. This needs a rendering that never yields "". Each figure is the suffixed percentage of its readings. |
| Utilization.MemoryExample | internal/usecase/dashboard.go:612-613 | 2 bytes free of 10 is 80 percent in use. |
| Resources.Live | internal/usecase/dashboard.go:154-156 | The kept clusters are exactly the ones not DELETED. All are kept exactly when none is DELETED. |
| Resources.LiveAppend | internal/usecase/dashboard.go:154-156 | Filtering keeps order: the live clusters of two lists joined are those of the first followed by those of the second. |
| Resources.StackCountAppend | internal/usecase/dashboard.go:154-161 | Stack counts of two cluster lists add up. |
| Resources.StackCountIsLiveIndices | internal/usecase/dashboard.go:154-158 | The stack count is the number of clusters whose status is not DELETED. |
| Resources.Contribution | internal/usecase/dashboard.go:172-180 | A sample Atoi rejects, or whose value is not positive, adds nothing. Otherwise it adds its cores, or its bytes divided by 1024 three times. |
| Resources.TotalIsWrappedSum | internal/usecase/dashboard.go:171-217 | The 64-bit running total equals the true sum wrapped once into int64. It is exactly the true sum when that fits. |
| Resources.UncountedAreIgnored | internal/usecase/dashboard.go:173-177 | Samples that are rejected or not positive leave the total at 0. |
| Resources.CountText | internal/usecase/dashboard.go:158 | The count text ends in " 개". |
| Resources.GigabyteText | internal/usecase/dashboard.go:199 | The size text ends in " GB". |
| Resources.TextsReadBack | internal/usecase/dashboard.go:181 | The number in front of the unit parses back to the total. |
| Resources.Card | internal/usecase/dashboard.go:154-217 | The stack count is the number of live clusters. Cores, memory and storage are the wrapped true sums of the amounts, with their units. |
| Resources.CoresExample | internal/usecase/dashboard.go:163-181 | Samples "32", "12", "-5" and "abc" give 44 cores. |
| Resources.TruncatedPerCluster | internal/usecase/dashboard.go:194-196 | Two clusters of half a gigabyte each show 0 GB, although together they hold one gigabyte. |

## Left out

- I/O and outside calls: the repositories, the Kubernetes client, the
  metrics backend and the alert store are parameters. Logging is dropped.
- `helper.SplitAddress` and `thanos.New` are not part of this model. The
  endpoint is kept whole, and building the client is taken to succeed, so
  the "failed to create thanos client" errors are not modelled.
- Cache expiry: `gcache.DefaultExpiration` is reduced to entries that may
  disappear at any time (`Resolvers.CachedUrlIsFresh`). Concurrent use of
  the cache is not modelled.
- Floating point: `strconv.ParseFloat(…, 32)`, the `float32` arithmetic and
  the `%f` / `%0.2f` renderings are the `FloatOps` parameter. Percentages
  are computed on reals.
- The `sort.Slice` at the end of `GetStacks` is left out. Its comparator
  ("i is RUNNING") is not a strict weak order, and `sort.Slice` is not
  stable, so Go guarantees no particular order. `Dashboard.GetStacks`
  returns the cards in cluster order. The real result is some permutation
  of them.
- `domain.ChartType.All`, `String` and `FromString` are not part of this
  model. `GetCharts` takes the list of types as a parameter, and a type
  name is a `ChartKind`.
- `reflectClusterToStack` and `domain.Map` are not part of this model. A
  card keeps the cluster it was built from.
- A chart's display name, description and `UpdatedAt` are not modelled.
- Time zones: today is given as the local calendar date. Alert dates are
  given as day numbers, on which both `Format` calls are taken to agree.
  The model also does not distinguish years outside 0000–9999, where
  `Format` strings stop comparing like dates.
- Partial output: Go returns a partly filled `out` together with an error.
  The model returns only the error.
- Civil.NormalizeMonth: Go's 64-bit wrap inside `time.Date` is not
  modelled, and neither is the one in `Calendar.WindowStart`, the
  `WindowQuery` bounds or the bucket labels. Year and month strings pass
  the guard unbounded below: month MinInt64 ("-9223372036854775808") of
  the current year, or a year of about -3e11. For them Go's `int(month)-1`,
  its day count since the epoch and `Unix()` wrap around int64. The model
  instead computes the exact month and day. Within the window of time that
  int64 seconds can hold, the two agree.
- Dashboard.GetStacks: the cards come in listing order only in the model.
  Go's final `sort.Slice` may move RUNNING cards forward, so the real result
  is only some permutation of these cards.
- Dashboard.GetCharts: every chart of one request is built at the same
  `now`. Go reads `time.Now()` again in each `getChartFromPrometheus` call,
  so its windows may start and end slightly later for later charts. The
  contents of each chart are stated by `Dashboard.GetChart`, not by
  `GetCharts`.
- The commented-out code in `getChartFromPrometheus` is not modelled.
- `internal/usecase/user.go`, `pkg/domain/user.go` and the audit
  middleware are not part of this model.

=== FILE: calendar.dfy ===
/**
 The `POD_CALENDAR` branch of `getChartFromPrometheus` and the `rangeDate`
 day generator: a fixed 30-day window from the first of the requested month,
 walked day by day with both ends included, one bucket per day holding the
 number of pod-restart alerts of that day, or "" for days after today.
 */
module Calendar {
  import opened Results
  import opened Metrics
  import Decimal
  import Civil

  /** A pod-restart alert, reduced to the calendar day of its `CreatedAt`. */
  datatype Alert = Alert(createdDay: int)

  /** `time.Now()`: the Unix second and the local calendar date. */
  datatype Clock = Clock(unix: int, local: Civil.Date) {
    ghost predicate Valid() {
      local.Valid()
    }

    /** The day `now.Format("2006-01-02")` names. */
    function Today(): int
      requires local.Valid()
    {
      local.Number()
    }
  }

  /** The window is `startDate.Add(time.Hour * 24 * 30)`. */
  const WindowDays: int := 30

  const PodRestartSeries: string := "podRestartCount"

  /** The arguments of `alertRepo.FetchPodRestart`, as Unix seconds. */
  datatype AlertQuery = AlertQuery(organizationId: string, start: int, end: int)

  // ---------------------------------------------------------------------
  // Validation

  /** The future-date guard, on the parsed but not yet normalised year and
      month: an error, or `None` when the request may proceed. */
  function CheckRequest(yearInt: int, monthInt: int, now: Clock): (r: Option<Error>)
    ensures r == Some(InvalidYear) <==> yearInt > now.local.year
    ensures r == Some(InvalidMonth) <==> yearInt == now.local.year && monthInt > now.local.month
    ensures r.None? <==> yearInt < now.local.year || (yearInt == now.local.year && monthInt <= now.local.month)
  {
    if now.local.year < yearInt then Some(InvalidYear)
    else if now.local.year == yearInt && now.local.month < monthInt then Some(InvalidMonth)
    else None
  }

  /** For a month in 1..12 the guard accepts exactly the months whose first
      day is not after today. */
  lemma AcceptsExactlyPastMonths(yearInt: int, monthInt: int, now: Clock)
    requires 1 <= monthInt <= 12
    requires now.Valid()
    ensures CheckRequest(yearInt, monthInt, now).None? <==> Civil.FirstOfMonth(yearInt, monthInt) <= now.Today()
  {
    var first := Civil.Date(yearInt, monthInt, 1);
    assert Civil.NormalizeMonth(yearInt, monthInt) == (yearInt, monthInt);
    assert Civil.FirstOfMonth(yearInt, monthInt) == first.Number();
    Civil.DateOrder(first, now.local);
    Civil.DateOrder(now.local, first);
  }

  /** The guard reads the month before `time.Date` carries it into a year:
      month 25 of last year passes, yet its window starts next January,
      after today. */
  lemma OutOfRangeMonthPassesGuard(now: Clock)
    requires now.Valid()
    ensures CheckRequest(now.local.year - 1, 25, now).None?
    ensures Civil.FirstOfMonth(now.local.year - 1, 25) > now.Today()
  {
    var nextJanuary := Civil.Date(now.local.year + 1, 1, 1);
    assert Civil.NormalizeMonth(now.local.year - 1, 25) == (now.local.year + 1, 1);
    assert Civil.FirstOfMonth(now.local.year - 1, 25) == nextJanuary.Number();
    Civil.DateOrder(now.local, nextJanuary);
  }

  // ---------------------------------------------------------------------
  // rangeDate

  /** The state captured by the closure `rangeDate` returns. */
  datatype DayWalk = DayWalk(next: int, end: int)

  function RangeDate(start: int, end: int): DayWalk {
    DayWalk(start, end)
  }

  /** One call of the closure: the next day, or Go's zero time (day
      `Civil.ZeroTimeDay`) once the walk is past its end. */
  function Advance(w: DayWalk): (r: (int, DayWalk))
    ensures w.next <= w.end ==> r == (w.next, DayWalk(w.next + 1, w.end))
    ensures w.next > w.end ==> r == (Civil.ZeroTimeDay, w)
  {
    if w.next > w.end then (Civil.ZeroTimeDay, w)
    else (w.next, DayWalk(w.next + 1, w.end))
  }

  /** The day the closure returns on its (k+1)-th call. */
  function NthDay(w: DayWalk, k: nat): int
    decreases k
  {
    var (d, w') := Advance(w);
    if k == 0 then d else NthDay(w', k - 1)
  }

  /** `rangeDate(start, end)` yields start, start+1, ..., end, and the zero
      time on every later call. */
  lemma {:induction false} RangeDateYields(start: int, end: int, k: nat)
    ensures NthDay(RangeDate(start, end), k) == if start + k <= end then start + k else Civil.ZeroTimeDay
    decreases k
  {
    if k > 0 && start <= end {
      RangeDateYields(start + 1, end, k - 1);
    } else if k > 0 {
      ExhaustedWalk(DayWalk(start, end), k);
    }
  }

  lemma {:induction false} ExhaustedWalk(w: DayWalk, k: nat)
    requires w.next > w.end
    ensures NthDay(w, k) == Civil.ZeroTimeDay
    decreases k
  {
    if k > 0 {
      ExhaustedWalk(w, k - 1);
    }
  }

  // ---------------------------------------------------------------------
  // Buckets

  /** How many days the walk of `[start, start + 30]` produces before the
      caller sees a zero time: all 31, unless one of the days is itself
      0001-01-01, whose instant `IsZero` also reports. */
  function BucketCount(start: int): (n: nat)
    ensures n <= WindowDays + 1
  {
    if start <= Civil.ZeroTimeDay <= start + WindowDays then Civil.ZeroTimeDay - start
    else WindowDays + 1
  }

  /** Alerts created on `day`. */
  function CountOn(alerts: seq<Alert>, day: int): (n: nat)
    ensures n <= |alerts|
  {
    if alerts == [] then 0
    else CountOn(alerts[..|alerts| - 1], day) + (if alerts[|alerts| - 1].createdDay == day then 1 else 0)
  }

  /** The same count as a set cardinality: the alerts whose date matches. */
  lemma {:induction false} CountOnIsMatchingAlerts(alerts: seq<Alert>, day: int)
    ensures CountOn(alerts, day) == |set i | 0 <= i < |alerts| && alerts[i].createdDay == day|
  {
    if alerts != [] {
      var n := |alerts| - 1;
      var init := alerts[..n];
      CountOnIsMatchingAlerts(init, day);
      var before := set i | 0 <= i < n && init[i].createdDay == day;
      var after := set i | 0 <= i < |alerts| && alerts[i].createdDay == day;
      if alerts[n].createdDay == day {
        assert after == before + {n};
      } else {
        assert after == before;
      }
    }
  }

  /** The cell of bucket `day`: "" after today, else the decimal count. */
  function Cell(day: int, today: int, alerts: seq<Alert>): string {
    if day <= today then Decimal.Itoa(CountOn(alerts, day)) else ""
  }

  /** The buckets of the first days walked from `start`: each labelled by
      its UTC midnight in Unix seconds, with its cell. */
  ghost predicate RowFrom(xAxis: seq<string>, counts: seq<string>, start: int, today: int, alerts: seq<Alert>) {
    && |counts| == |xAxis|
    && (forall k | 0 <= k < |xAxis| :: xAxis[k] == Decimal.Itoa((start + k) * Civil.SecondsPerDay))
    && (forall k | 0 <= k < |counts| :: counts[k] == Cell(start + k, today, alerts))
  }

  /** One bucket per day walked from `start`. */
  ghost predicate IsBucketRow(xAxis: seq<string>, counts: seq<string>, start: int, today: int, alerts: seq<Alert>) {
    |xAxis| == BucketCount(start) && RowFrom(xAxis, counts, start, today, alerts)
  }

  /** Appending the next day's bucket extends the row. */
  lemma RowStep(xAxis: seq<string>, counts: seq<string>, start: int, today: int, alerts: seq<Alert>, cell: string)
    requires RowFrom(xAxis, counts, start, today, alerts)
    requires cell == Cell(start + |xAxis|, today, alerts)
    ensures RowFrom(xAxis + [Decimal.Itoa((start + |xAxis|) * Civil.SecondsPerDay)], counts + [cell], start, today, alerts)
  {
  }

  /** The inner loop of a bucket: count the alerts created on `day`. */
  method CountAlerts(alerts: seq<Alert>, day: int) returns (cnt: nat)
    ensures cnt == CountOn(alerts, day)
  {
    cnt := 0;
    for j := 0 to |alerts|
      invariant cnt == CountOn(alerts[..j], day)
    {
      assert alerts[..j + 1][..j] == alerts[..j];
      if alerts[j].createdDay == day {
        cnt := cnt + 1;
      }
    }
    assert alerts[..|alerts|] == alerts;
  }

  /** The bucket loop of the `POD_CALENDAR` branch: walk the window with
      `rangeDate`, stop at the first zero time, and per day emit its UTC
      midnight as Unix seconds and its cell. */
  method Buckets(start: int, today: int, alerts: seq<Alert>) returns (xAxis: seq<string>, counts: seq<string>)
    ensures IsBucketRow(xAxis, counts, start, today, alerts)
    ensures forall k | 0 <= k < |counts| :: counts[k] != "" <==> start + k <= today
  {
    var end := start + WindowDays;
    var walk := RangeDate(start, end);
    xAxis := [];
    counts := [];
    while true
      invariant walk == DayWalk(start + |xAxis|, end)
      invariant |xAxis| <= WindowDays + 1
      invariant !(start <= Civil.ZeroTimeDay < start + |xAxis|)
      invariant RowFrom(xAxis, counts, start, today, alerts)
      decreases end + 1 - walk.next
    {
      var (d, next) := Advance(walk);
      walk := next;
      if d == Civil.ZeroTimeDay {
        break;
      }
      var cell := "";
      if d <= today {
        var cnt := CountAlerts(alerts, d);
        cell := Decimal.Itoa(cnt);
      }
      RowStep(xAxis, counts, start, today, alerts, cell);
      xAxis := xAxis + [Decimal.Itoa(d * Civil.SecondsPerDay)];
      counts := counts + [cell];
    }
  }

  /** Only a request for January of year 1 puts Go's zero time in the
      window; every other month gets all 31 buckets. */
  lemma WindowMissesZeroTime(yearInt: int, monthInt: int)
    ensures BucketCount(Civil.FirstOfMonth(yearInt, monthInt)) ==
      if Civil.FirstOfMonth(yearInt, monthInt) == Civil.ZeroTimeDay then 0 else WindowDays + 1
  {
    var (y, m) := Civil.NormalizeMonth(yearInt, monthInt);
    var first := Civil.Date(y, m, 1);
    var lastDecember := Civil.Date(0, 12, 1);
    var yearOne := Civil.Date(1, 1, 1);
    var february := Civil.Date(1, 2, 1);
    assert lastDecember.Number() == Civil.ZeroTimeDay - 31;
    assert february.Number() == Civil.ZeroTimeDay + 31;
    if first.Before(yearOne) {
      if first != lastDecember {
        Civil.DateOrder(first, lastDecember);
      }
    } else if first != yearOne {
      if first != february {
        Civil.DateOrder(february, first);
      }
    }
  }

  // ---------------------------------------------------------------------
  // The POD_CALENDAR chart

  /** The first day of the window for the year and month strings: a
      string that does not parse reads as Go's `strconv.Atoi` leaves it. */
  function WindowStart(year: string, month: string): int {
    Civil.FirstOfMonth(Decimal.Atoi(year).Value(), Decimal.Atoi(month).Value())
  }

  /** The guard applied to the year and month strings. */
  function RequestError(year: string, month: string, now: Clock): Option<Error> {
    CheckRequest(Decimal.Atoi(year).Value(), Decimal.Atoi(month).Value(), now)
  }

  function WindowQuery(organizationId: string, start: int): AlertQuery {
    AlertQuery(organizationId, start * Civil.SecondsPerDay, (start + WindowDays) * Civil.SecondsPerDay)
  }

  /** `c` is the calendar chart of the window from `start`: one series of
      cells over the walked days. */
  ghost predicate IsCalendar(c: ChartData, start: int, today: int, alerts: seq<Alert>) {
    && |c.series| == 1
    && c.series[0].name == PodRestartSeries
    && IsBucketRow(c.xAxis, c.series[0].data, start, today, alerts)
  }

  /** The `POD_CALENDAR` branch after the endpoint lookup: parse year and
      month, reject future months, fetch the alerts of the window and bucket
      them. */
  method PodCalendar(organizationId: string, year: string, month: string, now: Clock,
                     fetchAlerts: AlertQuery -> Option<seq<Alert>>)
    returns (r: Result<ChartData>)
    requires now.Valid()
    ensures RequestError(year, month, now).Some? ==> r == Err(RequestError(year, month, now).value)
    ensures RequestError(year, month, now).None? ==>
      match fetchAlerts(WindowQuery(organizationId, WindowStart(year, month)))
      case None => r == Err(QueryFailed)
      case Some(alerts) => r.Ok? && IsCalendar(r.value, WindowStart(year, month), now.Today(), alerts)
  {
    var check := RequestError(year, month, now);
    if check.Some? {
      return Err(check.value);
    }
    var start := WindowStart(year, month);
    var fetched := fetchAlerts(WindowQuery(organizationId, start));
    if fetched.None? {
      return Err(QueryFailed);
    }
    var xAxis, counts := Buckets(start, now.Today(), fetched.value);
    var chart := ChartData(xAxis, [Unit(PodRestartSeries, counts)]);
    r := Ok(chart);
  }
}

=== FILE: civil.dfy ===
/**
 Proleptic Gregorian calendar arithmetic as Go's `time` package performs it,
 with days counted from 1970-01-01 (day 0). A UTC midnight is the Unix
 instant `day * SecondsPerDay`.
 */
module Civil {

  const SecondsPerDay: int := 24 * 60 * 60

  /** The day number of 0001-01-01, the instant of Go's zero `time.Time`. */
  const ZeroTimeDay: int := -719162

  predicate IsLeapYear(y: int) {
    y % 4 == 0 && (y % 100 != 0 || y % 400 == 0)
  }

  function DaysInYear(y: int): int {
    if IsLeapYear(y) then 366 else 365
  }

  function DaysInMonth(y: int, m: int): (n: int)
    requires 1 <= m <= 12
    ensures 28 <= n <= 31
  {
    if m == 2 then (if IsLeapYear(y) then 29 else 28)
    else if m == 4 || m == 6 || m == 9 || m == 11 then 30
    else 31
  }

  /** Days of year `y` before the first of month `m` (the table Go keeps as
      `daysBefore`, plus the leap day from March on). */
  function DaysBeforeMonth(y: int, m: int): (n: nat)
    requires 1 <= m <= 12
  {
    [0, 31, 59, 90, 120, 151, 181, 212, 243, 273, 304, 334][m - 1]
      + (if m > 2 && IsLeapYear(y) then 1 else 0)
  }

  /** Leap years in [1, y) (negated count of those in [y, 1) when y < 1). */
  function LeapsBefore(y: int): int {
    (y - 1) / 4 - (y - 1) / 100 + (y - 1) / 400
  }

  /** Day number of January 1st of year `y`. */
  function DaysBeforeYear(y: int): int {
    365 * (y - 1970) + LeapsBefore(y) - LeapsBefore(1970)
  }

  /** Day number of `y-m-d`; `d` outside the month counts on linearly, as in
      `time.Date`. */
  function DayNumber(y: int, m: int, d: int): int
    requires 1 <= m <= 12
  {
    DaysBeforeYear(y) + DaysBeforeMonth(y, m) + d - 1
  }

  datatype Date = Date(year: int, month: int, day: int) {
    predicate Valid() {
      1 <= month <= 12 && 1 <= day <= DaysInMonth(year, month)
    }

    function Number(): int
      requires Valid()
    {
      DayNumber(year, month, day)
    }

    /** The order in which `Format("2006-01-02")` strings of dates with
        four-digit years compare: year, then month, then day. */
    predicate Before(other: Date) {
      || year < other.year
      || (year == other.year && month < other.month)
      || (year == other.year && month == other.month && day < other.day)
    }
  }

  // ---------------------------------------------------------------------
  // Month normalisation of time.Date

  /** Go's `norm(hi, lo, base)` from the time package: carry `lo` into `hi`
      until `0 <= lo < base`. */
  function Norm(hi: int, lo: int, base: int): (int, int)
    requires base > 0
  {
    var (hi1, lo1) :=
      if lo < 0 then
        var n := (-lo - 1) / base + 1;
        (hi - n, lo + n * base)
      else (hi, lo);
    if lo1 >= base then
      var n := lo1 / base;
      (hi1 + n, lo1 - n * base)
    else (hi1, lo1)
  }

  lemma DivUnique(x: int, k: int, q: int, r: int)
    requires k > 0 && 0 <= r < k && x == q * k + r
    ensures x / k == q && x % k == r
  {
    var q' := x / k;
    var r' := x % k;
    assert x == q' * k + r';
    assert (q' - q) * k == r - r';
    assert q' - q >= 1 ==> (q' - q) * k >= k;
    assert q' - q <= -1 ==> (q' - q) * k <= -k;
  }

  /** Go's carrying is floor division with a non-negative remainder. */
  lemma NormIsFloorDivision(hi: int, lo: int, base: int)
    requires base > 0
    ensures Norm(hi, lo, base) == (hi + lo / base, lo % base)
  {
    var (hi1, lo1) :=
      if lo < 0 then
        var n := (-lo - 1) / base + 1;
        (hi - n, lo + n * base)
      else (hi, lo);
    if lo < 0 {
      var n := (-lo - 1) / base + 1;
      var r := (-lo - 1) % base;
      assert -lo - 1 == (n - 1) * base + r;
      assert lo1 == base - 1 - r;
      DivUnique(lo, base, -n, lo1);
    } else {
      DivUnique(lo, base, lo / base, lo % base);
    }
  }

  /** `time.Date(year, time.Month(month), ...)` first moves the month into
      1..12, carrying whole years. */
  function NormalizeMonth(year: int, month: int): (r: (int, int))
    ensures 1 <= r.1 <= 12
    ensures 12 * r.0 + r.1 == 12 * year + month
  {
    var (y, m) := Norm(year, month - 1, 12);
    NormIsFloorDivision(year, month - 1, 12);
    (y, m + 1)
  }

  /** Day number of `time.Date(year, time.Month(month), 1, 0, 0, 0, 0, time.UTC)`. */
  function FirstOfMonth(year: int, month: int): int {
    var (y, m) := NormalizeMonth(year, month);
    DayNumber(y, m, 1)
  }

  // ---------------------------------------------------------------------
  // Lemmas

  /** x/k goes up by one exactly when x reaches a multiple of k. */
  lemma DivStep(x: int, k: int)
    requires k > 0
    ensures x / k - (x - 1) / k == if x % k == 0 then 1 else 0
  {
    var q := x / k;
    var r := x % k;
    if r > 0 {
      DivUnique(x - 1, k, q, r - 1);
    } else {
      DivUnique(x - 1, k, q - 1, k - 1);
    }
  }

  lemma MultipleOf(x: int, k: int, j: int)
    requires k > 0 && j > 0
    ensures x % (k * j) == 0 ==> x % k == 0
  {
    if x % (k * j) == 0 {
      var q := x / (k * j);
      assert x == q * (k * j);
      DivUnique(x, k, q * j, 0);
    }
  }

  /** Consecutive New Year's days are a year's length apart. */
  lemma YearLength(y: int)
    ensures DaysBeforeYear(y + 1) == DaysBeforeYear(y) + DaysInYear(y)
  {
    DivStep(y, 4);
    DivStep(y, 100);
    DivStep(y, 400);
    MultipleOf(y, 100, 4);
    MultipleOf(y, 4, 25);
  }

  /** The month table agrees with the month lengths: each month starts where
      the previous one ends, and December ends with the year. */
  lemma MonthsFillYear(y: int, m: int)
    requires 1 <= m <= 12
    ensures m < 12 ==> DaysBeforeMonth(y, m) + DaysInMonth(y, m) == DaysBeforeMonth(y, m + 1)
    ensures m == 12 ==> DaysBeforeMonth(y, m) + DaysInMonth(y, m) == DaysInYear(y)
  {
  }

  lemma {:induction false} MonthOrder(y: int, m1: int, m2: int)
    requires 1 <= m1 < m2 <= 12
    ensures DaysBeforeMonth(y, m1) + DaysInMonth(y, m1) <= DaysBeforeMonth(y, m2)
    decreases m2 - m1
  {
    MonthsFillYear(y, m1);
    if m1 + 1 < m2 {
      MonthsFillYear(y, m1 + 1);
      MonthOrder(y, m1 + 1, m2);
    }
  }

  lemma {:induction false} YearOrder(y1: int, y2: int)
    requires y1 < y2
    ensures DaysBeforeYear(y1) + DaysInYear(y1) <= DaysBeforeYear(y2)
    decreases y2 - y1
  {
    YearLength(y1);
    if y1 + 1 < y2 {
      YearOrder(y1 + 1, y2);
      YearLength(y1 + 1);
    }
  }

  lemma {:induction false} MonthDaysWithinYear(y: int, m: int)
    requires 1 <= m <= 12
    ensures DaysBeforeMonth(y, m) + DaysInMonth(y, m) <= DaysInYear(y)
    decreases 12 - m
  {
    MonthsFillYear(y, m);
    if m < 12 {
      MonthDaysWithinYear(y, m + 1);
    }
  }

  /** Comparing formatted dates compares day numbers: the calendar order of
      valid dates is the numeric order of their day numbers. */
  lemma DateOrder(a: Date, b: Date)
    requires a.Valid() && b.Valid()
    ensures a.Before(b) <==> a.Number() < b.Number()
    ensures a == b <==> a.Number() == b.Number()
  {
    if a.Before(b) {
      BeforeIsSmaller(a, b);
    } else if b.Before(a) {
      BeforeIsSmaller(b, a);
    }
  }

  lemma BeforeIsSmaller(a: Date, b: Date)
    requires a.Valid() && b.Valid() && a.Before(b)
    ensures a.Number() < b.Number()
  {
    if a.year < b.year {
      MonthDaysWithinYear(a.year, a.month);
      YearOrder(a.year, b.year);
    } else if a.month < b.month {
      MonthOrder(a.year, a.month, b.month);
    }
  }

  /** Go's zero time falls on the first of January of year 1. */
  lemma ZeroTimeIsYearOne()
    ensures FirstOfMonth(1, 1) == ZeroTimeDay
  {
  }
}

=== FILE: dashboard.dfy ===
/**
 The dashboard use case itself: `GetCharts` and its per-chart step
 `getChartFromPrometheus`, `GetStacks` and `GetResources`. Each resolves the
 organization's metrics endpoint through the cache, asks the metrics backend,
 and hands the answers to the reshaping functions of the other modules. The
 backend, the alert store and the repositories are parameters.
 */
module Dashboard {
  import opened Results
  import opened Metrics
  import opened Resolvers
  import SeriesAligner
  import Calendar
  import Utilization
  import Resources

  /** The chart types `getChartFromPrometheus` is asked for; `Unknown` is
      any other type string. */
  datatype ChartKind = Cpu | Memory | Pod | Traffic | PodCalendar | Unknown(name: string)

  /** The chart type of a `GetCharts` request: every type, or one. */
  datatype ChartSelection = AllCharts | Only(kind: ChartKind)

  /** The arguments of `thanosClient.FetchRange`, with the endpoint the
      client was built for. */
  datatype RangeQuery = RangeQuery(endpoint: string, expr: PromQuery, start: int, end: int, step: int)

  /** The arguments of `thanosClient.Get`, with the endpoint. */
  datatype InstantQuery = InstantQuery(endpoint: string, expr: PromQuery)

  /** What the metrics backend and the alert store answer; `None` is a call
      that returned an error. */
  datatype Backend = Backend(
    range: RangeQuery -> Option<seq<Series>>,
    instant: InstantQuery -> Option<seq<Sample>>,
    alerts: Calendar.AlertQuery -> Option<seq<Calendar.Alert>>)

  /** A chart of the dashboard (`domain.DashboardChart`) without its display
      name, description and time stamp. */
  datatype DashboardChart = DashboardChart(
    kind: ChartKind, organizationId: string,
    duration: string, interval: string, year: string, month: string,
    data: ChartData)

  /** A stack card: the cluster it shows and its utilisation figures. */
  datatype StackCard = StackCard(cluster: Cluster, usage: Utilization.StackUsage)

  // ---------------------------------------------------------------------
  // Query parameters

  /** The length of the queried window in seconds; one day unless the
      duration is one of the known ones. */
  function DurationSeconds(duration: string): (n: int)
    ensures n == 3600 <==> duration == "1h"
    ensures n == 604800 <==> duration == "7d"
    ensures n == 2592000 <==> duration == "30d"
    ensures n == 86400 <==> duration != "1h" && duration != "7d" && duration != "30d"
  {
    if duration == "1h" then 60 * 60
    else if duration == "1d" then 60 * 60 * 24
    else if duration == "7d" then 60 * 60 * 24 * 7
    else if duration == "30d" then 60 * 60 * 24 * 30
    else 60 * 60 * 24
  }

  /** The step between points in seconds; one hour unless the interval is
      one of the known ones. The key "7h" stands for a step of seven days. */
  function IntervalSeconds(interval: string): (n: int)
    ensures n == 86400 <==> interval == "1d"
    ensures n == 604800 <==> interval == "7h"
    ensures n == 3600 <==> interval != "1d" && interval != "7h"
  {
    if interval == "1h" then 60 * 60
    else if interval == "1d" then 60 * 60 * 24
    else if interval == "7h" then 60 * 60 * 24 * 7
    else 60 * 60
  }

  /** The "7h" step is as long as the "7d" window, not seven one-hour steps. */
  lemma SevenHourStepIsAWeek()
    ensures IntervalSeconds("7h") == DurationSeconds("7d")
    ensures IntervalSeconds("7h") == 7 * DurationSeconds("1d")
    ensures IntervalSeconds("7h") != 7 * IntervalSeconds("1h")
  {
  }

  /** The PromQL expressions the use case sends, by name. */
  datatype PromQuery =
    | CpuUsage | MemoryUsage | PodRestarts | NetworkReceive   // range queries of the charts
    | StackMemoryDisk | StackCpu                             // instant queries of the stack cards
    | MachineCores | MachineMemory | VolumeCapacity          // instant queries of the totals
  {
    function Expr(): string {
      match this
      case CpuUsage => "avg by (taco_cluster) (1-rate(node_cpu_seconds_total{mode=\"idle\"}[1h]))"
      case MemoryUsage =>
        "avg by (taco_cluster) (sum(node_memory_MemTotal_bytes - node_memory_MemAvailable_bytes) by (taco_cluster) / sum(node_memory_MemTotal_bytes) by (taco_cluster))"
      case PodRestarts =>
        "avg by (taco_cluster) (increase(kube_pod_container_status_restarts_total{namespace!=\"kube-system\"}[1h]))"
      case NetworkReceive => "avg by (taco_cluster) (rate(container_network_receive_bytes_total[1h]))"
      case StackMemoryDisk =>
        "sum by (__name__, taco_cluster) ({__name__=~\"node_memory_MemFree_bytes|machine_memory_bytes|kubelet_volume_stats_used_bytes|kubelet_volume_stats_capacity_bytes\"})"
      case StackCpu => "avg by (taco_cluster) (instance:node_cpu:ratio*100)"
      case MachineCores => "sum by (taco_cluster) (machine_cpu_cores)"
      case MachineMemory => "sum by (taco_cluster) (machine_memory_bytes)"
      case VolumeCapacity => "sum by (taco_cluster) (kubelet_volume_stats_capacity_bytes)"
    }
  }

  /** The range query expression of a chart type; `None` for the calendar,
      which reads the alert store instead, and for unknown types. */
  function RangeExpr(kind: ChartKind): (r: Option<PromQuery>)
    ensures r.Some? <==> kind in {Cpu, Memory, Pod, Traffic}
  {
    match kind
    case Cpu => Some(CpuUsage)
    case Memory => Some(MemoryUsage)
    case Pod => Some(PodRestarts)
    case Traffic => Some(NetworkReceive)
    case _ => None
  }

  /** CPU and memory values are ratios and are shown as percentages. */
  predicate Percentage(kind: ChartKind) {
    kind == Cpu || kind == Memory
  }

  /** The range query of a chart: the window of the duration ending now, in
      steps of the interval. */
  function RangeFor(endpoint: string, expr: PromQuery, duration: string, interval: string, now: Calendar.Clock)
    : (q: RangeQuery)
    ensures q.endpoint == endpoint && q.expr == expr
    ensures q.end == now.unix && q.end - q.start == DurationSeconds(duration)
    ensures q.step == IntervalSeconds(interval) && q.step > 0
  {
    RangeQuery(endpoint, expr, now.unix - DurationSeconds(duration), now.unix, IntervalSeconds(interval))
  }

  // ---------------------------------------------------------------------
  // getChartFromPrometheus

  /** The chart of a range query type once the backend has answered. */
  function RangeChart(kind: ChartKind, organizationId: string, duration: string, interval: string,
                      results: seq<Series>, ops: FloatOps, cache: Cache, reg: Registry)
    : (r: (DashboardChart, Cache))
    ensures r.0.kind == kind && r.0.organizationId == organizationId
    ensures r.0.duration == duration && r.0.interval == interval && r.0.year == "" && r.0.month == ""
    ensures r.0.data.xAxis == SeriesAligner.SharedXAxis(results) && |r.0.data.series| == |results|
    ensures forall i | 0 <= i < |results| ::
      && r.0.data.series[i].name == SeriesAligner.SeriesLabels(cache, reg, results).0[i]
      && |r.0.data.series[i].data| == |r.0.data.xAxis|
      && forall j | 0 <= j < |r.0.data.xAxis| ::
           r.0.data.series[i].data[j] ==
             SeriesAligner.ChartYValue(results[i].values, r.0.data.xAxis[j], kind == Cpu || kind == Memory, ops)
    ensures r.1 == SeriesAligner.SeriesLabels(cache, reg, results).1
    ensures Extends(r.1, cache)
  {
    var (data, cache') := SeriesAligner.AlignedChart(results, Percentage(kind), ops, cache, reg);
    (DashboardChart(kind, organizationId, duration, interval, "", "", data), cache')
  }

  /** The range branch of `getChartFromPrometheus` once the endpoint is
      known: one range query over the requested window, then the aligned
      chart, or the query's failure. */
  function RangeAnswer(endpoint: string, cache: Cache, reg: Registry, backend: Backend, ops: FloatOps,
                       organizationId: string, kind: ChartKind, duration: string, interval: string,
                       now: Calendar.Clock)
    : (r: (Result<DashboardChart>, Cache))
    requires RangeExpr(kind).Some?
    ensures backend.range(RangeFor(endpoint, RangeExpr(kind).value, duration, interval, now)).None? ==>
      r == (Err(QueryFailed), cache)
    ensures backend.range(RangeFor(endpoint, RangeExpr(kind).value, duration, interval, now)).Some? ==>
      var results := backend.range(RangeFor(endpoint, RangeExpr(kind).value, duration, interval, now)).value;
      && r.0.Ok? && r.0.value.data.xAxis == SeriesAligner.SharedXAxis(results)
      && |r.0.value.data.series| == |results|
      && r.0.value.duration == duration && r.0.value.interval == interval
      && r.0.value == RangeChart(kind, organizationId, duration, interval, results, ops, cache, reg).0
      && r.1 == SeriesAligner.SeriesLabels(cache, reg, results).1
    ensures r.0.Ok? ==> r.0.value.kind == kind && r.0.value.organizationId == organizationId
    ensures Extends(r.1, cache)
  {
    match backend.range(RangeFor(endpoint, RangeExpr(kind).value, duration, interval, now))
    case None => (Err(QueryFailed), cache)
    case Some(results) =>
      var (chart, cache') := RangeChart(kind, organizationId, duration, interval, results, ops, cache, reg);
      (Ok(chart), cache')
  }

  /** What the `POD_CALENDAR` branch answers: the future-month error, the
      alert store's failure, or the calendar of the window. */
  ghost predicate CalendarAnswer(organizationId: string, year: string, month: string, now: Calendar.Clock,
                                 alerts: Calendar.AlertQuery -> Option<seq<Calendar.Alert>>,
                                 r: Result<DashboardChart>)
    requires now.Valid()
  {
    && (Calendar.RequestError(year, month, now).Some? ==> r == Err(Calendar.RequestError(year, month, now).value))
    && (Calendar.RequestError(year, month, now).None? ==>
          match alerts(Calendar.WindowQuery(organizationId, Calendar.WindowStart(year, month)))
          case None => r == Err(QueryFailed)
          case Some(found) =>
            && r.Ok? && r.value.year == year && r.value.month == month
            && Calendar.IsCalendar(r.value.data, Calendar.WindowStart(year, month), now.Today(), found))
  }

  /** The `POD_CALENDAR` branch of `getChartFromPrometheus`. */
  method CalendarChart(organizationId: string, year: string, month: string, now: Calendar.Clock,
                       alerts: Calendar.AlertQuery -> Option<seq<Calendar.Alert>>)
    returns (r: Result<DashboardChart>)
    requires now.Valid()
    ensures CalendarAnswer(organizationId, year, month, now, alerts, r)
    ensures r.Ok? ==> r.value.kind == PodCalendar && r.value.organizationId == organizationId
  {
    var c := Calendar.PodCalendar(organizationId, year, month, now, alerts);
    if c.Err? {
      return Err(c.error);
    }
    return Ok(DashboardChart(PodCalendar, organizationId, "", "", year, month, c.value));
  }

  /** What `getChartFromPrometheus` answers, and the cache after it: the
      endpoint lookup comes first and its failure is reported as an invalid
      primary stack; then the calendar reads the alert store, a range type
      queries the backend, and any other type has no data. */
  ghost predicate ChartAnswer(cache: Cache, reg: Registry, backend: Backend, ops: FloatOps, organizationId: string,
                              kind: ChartKind, duration: string, interval: string, year: string, month: string,
                              now: Calendar.Clock, r: Result<DashboardChart>, cache': Cache)
    requires now.Valid()
  {
    var url := ResolveThanosUrl(cache, reg, organizationId);
    && (url.out.Err? ==> r == Err(InvalidPrimaryStack(url.out.error)) && cache' == cache)
    && (url.out.Ok? && kind.Unknown? ==> r == Err(NoData) && cache' == url.cache)
    && (url.out.Ok? && RangeExpr(kind).Some? ==>
          (r, cache') == RangeAnswer(url.out.value, url.cache, reg, backend, ops, organizationId, kind, duration, interval, now))
    && (url.out.Ok? && kind == PodCalendar ==>
          cache' == url.cache && CalendarAnswer(organizationId, year, month, now, backend.alerts, r))
  }

  /** The error `getChartFromPrometheus` ends with when the endpoint lookup
      answers `endpoint`, or `None` when it builds a chart. Nothing else of
      the cache, and nothing of how values are rendered, decides it. */
  function ChartError(endpoint: Result<string>, backend: Backend, organizationId: string,
                      kind: ChartKind, duration: string, interval: string, year: string, month: string,
                      now: Calendar.Clock): Option<Error>
  {
    if endpoint.Err? then Some(InvalidPrimaryStack(endpoint.error))
    else match kind
      case Unknown(_) => Some(NoData)
      case PodCalendar =>
        if Calendar.RequestError(year, month, now).Some? then Calendar.RequestError(year, month, now)
        else if backend.alerts(Calendar.WindowQuery(organizationId, Calendar.WindowStart(year, month))).None?
        then Some(QueryFailed)
        else None
      case _ =>
        if backend.range(RangeFor(endpoint.value, RangeExpr(kind).value, duration, interval, now)).None?
        then Some(QueryFailed)
        else None
  }

  /** `getChartFromPrometheus`. The cache only ever gains entries and keeps
      the endpoint answer, a chart carries the type and organization it was
      asked for, and the call fails exactly with `ChartError`. */
  method GetChart(cache: Cache, reg: Registry, backend: Backend, ops: FloatOps, organizationId: string,
                  kind: ChartKind, duration: string, interval: string, year: string, month: string,
                  now: Calendar.Clock)
    returns (r: Result<DashboardChart>, cache': Cache)
    requires now.Valid()
    ensures ChartAnswer(cache, reg, backend, ops, organizationId, kind, duration, interval, year, month, now, r, cache')
    ensures Extends(cache', cache)
    ensures ResolveThanosUrl(cache', reg, organizationId).out == ResolveThanosUrl(cache, reg, organizationId).out
    ensures r.Ok? ==> r.value.kind == kind && r.value.organizationId == organizationId
    ensures r.Err? <==> ChartError(ResolveThanosUrl(cache, reg, organizationId).out, backend, organizationId, kind, duration, interval, year, month, now).Some?
    ensures r.Err? ==> ChartError(ResolveThanosUrl(cache, reg, organizationId).out, backend, organizationId, kind, duration, interval, year, month, now) == Some(r.error)
  {
    var url := ResolveThanosUrl(cache, reg, organizationId);
    LookupsOnlyAdd(cache, reg, organizationId, "");
    if url.out.Err? {
      r, cache' := Err(InvalidPrimaryStack(url.out.error)), cache;
    } else if kind == PodCalendar {
      r := CalendarChart(organizationId, year, month, now, backend.alerts);
      cache' := url.cache;
    } else if RangeExpr(kind).None? {
      r, cache' := Err(NoData), url.cache;
    } else {
      var answer := RangeAnswer(url.out.value, url.cache, reg, backend, ops, organizationId, kind, duration, interval, now);
      ExtendsTransitive(cache, url.cache, answer.1);
      r, cache' := answer.0, answer.1;
    }
    ChartAnswerFails(cache, reg, backend, ops, organizationId, kind, duration, interval, year, month, now, r, cache');
  }

  /** A chart answer fails exactly with `ChartError`, and leaves a cache
      whose endpoint answer is the one the request started with. */
  lemma ChartAnswerFails(cache: Cache, reg: Registry, backend: Backend, ops: FloatOps, organizationId: string,
                         kind: ChartKind, duration: string, interval: string, year: string, month: string,
                         now: Calendar.Clock, r: Result<DashboardChart>, cache': Cache)
    requires now.Valid()
    requires ChartAnswer(cache, reg, backend, ops, organizationId, kind, duration, interval, year, month, now, r, cache')
    ensures r.Err? <==> ChartError(ResolveThanosUrl(cache, reg, organizationId).out, backend, organizationId, kind, duration, interval, year, month, now).Some?
    ensures r.Err? ==> ChartError(ResolveThanosUrl(cache, reg, organizationId).out, backend, organizationId, kind, duration, interval, year, month, now) == Some(r.error)
    ensures ResolveThanosUrl(cache', reg, organizationId).out == ResolveThanosUrl(cache, reg, organizationId).out
  {
    var url := ResolveThanosUrl(cache, reg, organizationId);
    if url.out.Ok? {
      ResolveThanosUrlIdempotent(cache, reg, organizationId);
      if RangeExpr(kind).Some? {
        var query := RangeFor(url.out.value, RangeExpr(kind).value, duration, interval, now);
        if backend.range(query).Some? {
          SeriesAligner.SeriesLabelsKeepEndpointEntry(url.cache, reg, backend.range(query).value, organizationId);
          EndpointEntryDecides(cache', url.cache, reg, organizationId);
        }
      }
    }
  }

  // ---------------------------------------------------------------------
  // GetCharts

  predicate Selects(selection: ChartSelection, kind: ChartKind) {
    selection.AllCharts? || selection.kind == kind
  }

  /** The chart types a request selects, in the order of the type list. */
  function Selected(selection: ChartSelection, all: seq<ChartKind>): (r: seq<ChartKind>)
    ensures |r| <= |all|
    ensures selection.AllCharts? ==> r == all
    ensures forall i | 0 <= i < |r| :: Selects(selection, r[i])
  {
    if all == [] then []
    else
      var init := all[..|all| - 1];
      var last := all[|all| - 1];
      assert all == init + [last];
      Selected(selection, init) + (if Selects(selection, last) then [last] else [])
  }

  /** A type is selected exactly when it is listed and the request asks for it. */
  lemma {:induction false} SelectedMembers(selection: ChartSelection, all: seq<ChartKind>)
    ensures forall k :: k in Selected(selection, all) <==> k in all && Selects(selection, k)
    decreases |all|
  {
    if all != [] {
      var init := all[..|all| - 1];
      assert all == init + [all[|all| - 1]];
      SelectedMembers(selection, init);
    }
  }

  /** Selection keeps the order of the type list: selecting from a
      concatenation selects from each part in turn. */
  lemma {:induction false} SelectedAppend(selection: ChartSelection, a: seq<ChartKind>, b: seq<ChartKind>)
    ensures Selected(selection, a + b) == Selected(selection, a) + Selected(selection, b)
    decreases |b|
  {
    if b == [] {
      assert a + b == a;
    } else {
      var init := b[..|b| - 1];
      assert b == init + [b[|b| - 1]];
      assert a + b == (a + init) + [b[|b| - 1]];
      assert (a + b)[..|a + b| - 1] == a + init;
      SelectedAppend(selection, a, init);
    }
  }

  /** The positions of the type list a request selects. */
  ghost function SelectedIndices(selection: ChartSelection, all: seq<ChartKind>): set<int> {
    set i | 0 <= i < |all| && Selects(selection, all[i])
  }

  /** There is one selected type per position of the list that the request
      selects, so a type listed once is built once. */
  lemma {:induction false} SelectedCount(selection: ChartSelection, all: seq<ChartKind>)
    ensures |Selected(selection, all)| == |SelectedIndices(selection, all)|
    decreases |all|
  {
    if all == [] {
      assert SelectedIndices(selection, all) == {};
    } else {
      var n := |all| - 1;
      var init := all[..n];
      SelectedCount(selection, init);
      if Selects(selection, all[n]) {
        assert SelectedIndices(selection, all) == SelectedIndices(selection, init) + {n};
      } else {
        assert SelectedIndices(selection, all) == SelectedIndices(selection, init);
      }
    }
  }

  /** The error of the first of `kinds` whose chart fails, or `None` when
      every chart is built. */
  function FirstChartError(endpoint: Result<string>, backend: Backend, organizationId: string,
                           kinds: seq<ChartKind>, duration: string, interval: string, year: string, month: string,
                           now: Calendar.Clock): Option<Error>
    decreases |kinds|
  {
    if kinds == [] then None
    else match ChartError(endpoint, backend, organizationId, kinds[0], duration, interval, year, month, now)
      case Some(e) => Some(e)
      case None => FirstChartError(endpoint, backend, organizationId, kinds[1..], duration, interval, year, month, now)
  }

  /** `FirstChartError` is `None` exactly when no chart fails, and otherwise
      the error of a failing chart all of whose predecessors succeed. */
  lemma {:induction false} FirstChartErrorSpec(endpoint: Result<string>, backend: Backend, organizationId: string,
                                               kinds: seq<ChartKind>, duration: string, interval: string,
                                               year: string, month: string, now: Calendar.Clock)
    ensures FirstChartError(endpoint, backend, organizationId, kinds, duration, interval, year, month, now).None? <==>
      forall i | 0 <= i < |kinds| ::
        ChartError(endpoint, backend, organizationId, kinds[i], duration, interval, year, month, now).None?
    ensures FirstChartError(endpoint, backend, organizationId, kinds, duration, interval, year, month, now).Some? ==>
      exists i | 0 <= i < |kinds| ::
        && ChartError(endpoint, backend, organizationId, kinds[i], duration, interval, year, month, now)
           == FirstChartError(endpoint, backend, organizationId, kinds, duration, interval, year, month, now)
        && forall j | 0 <= j < i ::
             ChartError(endpoint, backend, organizationId, kinds[j], duration, interval, year, month, now).None?
    decreases |kinds|
  {
    if kinds != [] {
      var rest := kinds[1..];
      FirstChartErrorSpec(endpoint, backend, organizationId, rest, duration, interval, year, month, now);
      assert forall i | 1 <= i < |kinds| :: kinds[i] == rest[i - 1];
      var first := ChartError(endpoint, backend, organizationId, kinds[0], duration, interval, year, month, now);
      if first.None? && FirstChartError(endpoint, backend, organizationId, rest, duration, interval, year, month, now).Some? {
        var i :| && 0 <= i < |rest|
                 && ChartError(endpoint, backend, organizationId, rest[i], duration, interval, year, month, now)
                    == FirstChartError(endpoint, backend, organizationId, rest, duration, interval, year, month, now)
                 && forall j | 0 <= j < i ::
                      ChartError(endpoint, backend, organizationId, rest[j], duration, interval, year, month, now).None?;
        assert kinds[i + 1] == rest[i];
      }
    }
  }

  /** One step of the `GetCharts` loop, for the `i`-th of `kinds`: a chart
      of that type for the organization, or the error that ends the loop,
      which is the first error of the remaining types. `endpoint` is what
      the endpoint lookup answers at this point; the step keeps it. */
  method SelectedChart(cache: Cache, reg: Registry, backend: Backend, ops: FloatOps, organizationId: string,
                       kinds: seq<ChartKind>, i: nat, duration: string, interval: string, year: string, month: string,
                       now: Calendar.Clock, ghost endpoint: Result<string>)
    returns (r: Result<DashboardChart>, cache': Cache)
    requires now.Valid()
    requires i < |kinds|
    requires ResolveThanosUrl(cache, reg, organizationId).out == endpoint
    ensures Extends(cache', cache)
    ensures ResolveThanosUrl(cache', reg, organizationId).out == endpoint
    ensures r.Ok? ==> r.value.kind == kinds[i] && r.value.organizationId == organizationId
    ensures r.Err? ==>
      FirstChartError(endpoint, backend, organizationId, kinds[i..], duration, interval, year, month, now) == Some(r.error)
    ensures r.Ok? ==>
      FirstChartError(endpoint, backend, organizationId, kinds[i..], duration, interval, year, month, now)
      == FirstChartError(endpoint, backend, organizationId, kinds[i + 1..], duration, interval, year, month, now)
  {
    r, cache' := GetChart(cache, reg, backend, ops, organizationId, kinds[i], duration, interval, year, month, now);
    assert kinds[i..][0] == kinds[i] && kinds[i..][1..] == kinds[i + 1..];
  }

  /** `GetCharts`: check the organization, then build every selected chart
      in turn, stopping at the first failure. `all` is the list of chart
      type names the request is matched against. For a known organization
      the request fails exactly with the error of the first selected chart
      that fails. */
  method GetCharts(cache: Cache, reg: Registry, backend: Backend, ops: FloatOps, organizationId: string,
                   selection: ChartSelection, all: seq<ChartKind>,
                   duration: string, interval: string, year: string, month: string, now: Calendar.Clock)
    returns (r: Result<seq<DashboardChart>>, cache': Cache)
    requires now.Valid()
    ensures Extends(cache', cache)
    ensures organizationId !in reg.organizations ==> r == Err(OrganizationNotFound) && cache' == cache
    ensures r.Ok? ==>
      && |r.value| == |Selected(selection, all)|
      && forall i | 0 <= i < |r.value| ::
           r.value[i].kind == Selected(selection, all)[i] && r.value[i].organizationId == organizationId
    ensures organizationId in reg.organizations ==>
      && (r.Ok? <==> FirstChartError(ResolveThanosUrl(cache, reg, organizationId).out, backend, organizationId,
                                     Selected(selection, all), duration, interval, year, month, now).None?)
      && (r.Err? ==> FirstChartError(ResolveThanosUrl(cache, reg, organizationId).out, backend, organizationId,
                                     Selected(selection, all), duration, interval, year, month, now) == Some(r.error))
  {
    if organizationId !in reg.organizations {
      return Err(OrganizationNotFound), cache;
    }
    ghost var endpoint := ResolveThanosUrl(cache, reg, organizationId).out;
    // The loop over `all` skips the types not selected; it visits the
    // selected ones in the same order as this loop over `Selected`.
    var kinds := Selected(selection, all);
    ghost var verdict := FirstChartError(endpoint, backend, organizationId, kinds, duration, interval, year, month, now);
    var out: seq<DashboardChart> := [];
    cache' := cache;
    for i := 0 to |kinds|
      invariant Extends(cache', cache)
      invariant |out| == i
      invariant forall j | 0 <= j < i :: out[j].kind == kinds[j] && out[j].organizationId == organizationId
      invariant ResolveThanosUrl(cache', reg, organizationId).out == endpoint
      invariant verdict == FirstChartError(endpoint, backend, organizationId, kinds[i..], duration, interval, year, month, now)
    {
      var chart, next := SelectedChart(cache', reg, backend, ops, organizationId, kinds, i,
                                       duration, interval, year, month, now, endpoint);
      ExtendsTransitive(cache, cache', next);
      cache' := next;
      if chart.Err? {
        return Err(chart.error), cache';
      }
      out := out + [chart.value];
    }
    assert kinds[|kinds|..] == [];
    r := Ok(out);
  }

  // ---------------------------------------------------------------------
  // GetStacks

  /** The card of one cluster, from the two instant query results. */
  function CardOf(cluster: Cluster, memoryDisk: seq<Sample>, cpu: seq<Sample>, ops: FloatOps): StackCard {
    StackCard(cluster, Utilization.UsageOf(memoryDisk, cpu, cluster.id, ops))
  }

  /** The cards of the clusters, in cluster order. */
  function Cards(clusters: seq<Cluster>, memoryDisk: seq<Sample>, cpu: seq<Sample>, ops: FloatOps): (r: seq<StackCard>)
    ensures |r| == |clusters|
    ensures forall k | 0 <= k < |clusters| :: r[k] == CardOf(clusters[k], memoryDisk, cpu, ops)
  {
    seq(|clusters|, k requires 0 <= k < |clusters| => CardOf(clusters[k], memoryDisk, cpu, ops))
  }

  /** What the card part of `GetStacks` answers at `endpoint`: a failed
      memory/disk query, then a failed CPU query, is `QueryFailed`; a
      cluster whose application groups cannot be listed is
      `AppGroupsUnavailable`; otherwise card k is the card of cluster k. */
  ghost predicate StackAnswer(endpoint: string, clusters: seq<Cluster>, backend: Backend, ops: FloatOps,
                              appGroupsListed: string -> bool, r: Result<seq<StackCard>>)
  {
    && (backend.instant(InstantQuery(endpoint, StackMemoryDisk)).None? ==> r == Err(QueryFailed))
    && ((backend.instant(InstantQuery(endpoint, StackMemoryDisk)).Some?
         && backend.instant(InstantQuery(endpoint, StackCpu)).None?) ==> r == Err(QueryFailed))
    && (r.Ok? <==>
          && backend.instant(InstantQuery(endpoint, StackMemoryDisk)).Some?
          && backend.instant(InstantQuery(endpoint, StackCpu)).Some?
          && forall k | 0 <= k < |clusters| :: appGroupsListed(clusters[k].id))
    && (r.Ok? ==>
          var memoryDisk := backend.instant(InstantQuery(endpoint, StackMemoryDisk)).value;
          var cpu := backend.instant(InstantQuery(endpoint, StackCpu)).value;
          && |r.value| == |clusters|
          && forall k | 0 <= k < |clusters| :: r.value[k] == CardOf(clusters[k], memoryDisk, cpu, ops))
    && ((r.Err? && backend.instant(InstantQuery(endpoint, StackMemoryDisk)).Some?
         && backend.instant(InstantQuery(endpoint, StackCpu)).Some?) ==> r == Err(AppGroupsUnavailable))
  }

  /** The part of `GetStacks` after the clusters are listed and the endpoint
      resolved: the two instant queries, then per cluster its application
      groups and its card, in cluster order. */
  method StackCards(endpoint: string, clusters: seq<Cluster>, backend: Backend, ops: FloatOps,
                    appGroupsListed: string -> bool)
    returns (r: Result<seq<StackCard>>)
    ensures StackAnswer(endpoint, clusters, backend, ops, appGroupsListed, r)
  {
    var memoryDisk := backend.instant(InstantQuery(endpoint, StackMemoryDisk));
    if memoryDisk.None? {
      return Err(QueryFailed);
    }
    var cpu := backend.instant(InstantQuery(endpoint, StackCpu));
    if cpu.None? {
      return Err(QueryFailed);
    }
    for i := 0 to |clusters|
      invariant forall k | 0 <= k < i :: appGroupsListed(clusters[k].id)
    {
      if !appGroupsListed(clusters[i].id) {
        return Err(AppGroupsUnavailable);
      }
    }
    r := Ok(Cards(clusters, memoryDisk.value, cpu.value, ops));
  }

  /** `GetStacks`: list the clusters, resolve the endpoint, then build the
      cards. The cards are those before the final reordering. */
  method GetStacks(cache: Cache, reg: Registry, backend: Backend, ops: FloatOps, organizationId: string,
                   clusters: Option<seq<Cluster>>, appGroupsListed: string -> bool)
    returns (r: Result<seq<StackCard>>, cache': Cache)
    ensures Extends(cache', cache)
    ensures clusters.None? ==> r == Err(ClustersUnavailable) && cache' == cache
    ensures clusters.Some? && ResolveThanosUrl(cache, reg, organizationId).out.Err? ==>
      r == Err(InvalidPrimaryStack(ResolveThanosUrl(cache, reg, organizationId).out.error)) && cache' == cache
    ensures r.Ok? ==>
      && clusters.Some? && ResolveThanosUrl(cache, reg, organizationId).out.Ok?
      && cache' == ResolveThanosUrl(cache, reg, organizationId).cache
      && |r.value| == |clusters.value|
      && forall k | 0 <= k < |clusters.value| :: r.value[k].cluster == clusters.value[k]
    ensures clusters.Some? && ResolveThanosUrl(cache, reg, organizationId).out.Ok? ==>
      && cache' == ResolveThanosUrl(cache, reg, organizationId).cache
      && StackAnswer(ResolveThanosUrl(cache, reg, organizationId).out.value, clusters.value, backend, ops,
                     appGroupsListed, r)
  {
    if clusters.None? {
      return Err(ClustersUnavailable), cache;
    }
    var url := ResolveThanosUrl(cache, reg, organizationId);
    if url.out.Err? {
      return Err(InvalidPrimaryStack(url.out.error)), cache;
    }
    LookupsOnlyAdd(cache, reg, organizationId, "");
    cache' := url.cache;
    r := StackCards(url.out.value, clusters.value, backend, ops, appGroupsListed);
  }

  // ---------------------------------------------------------------------
  // GetResources

  /** `GetResources`: resolve the endpoint, list the clusters, then the
      cores, memory and storage queries, each failure ending the request. */
  function GetResources(cache: Cache, reg: Registry, backend: Backend, organizationId: string,
                        clusters: Option<seq<Cluster>>)
    : (r: (Result<Resources.DashboardResource>, Cache))
    ensures r.1 == ResolveThanosUrl(cache, reg, organizationId).cache && Extends(r.1, cache)
    ensures ResolveThanosUrl(cache, reg, organizationId).out.Err? ==>
      r.0 == Err(InvalidPrimaryStack(ResolveThanosUrl(cache, reg, organizationId).out.error))
    ensures ResolveThanosUrl(cache, reg, organizationId).out.Ok? && clusters.None? ==> r.0 == Err(ClustersUnavailable)
    ensures r.0.Ok? <==>
      && ResolveThanosUrl(cache, reg, organizationId).out.Ok? && clusters.Some?
      && backend.instant(InstantQuery(ResolveThanosUrl(cache, reg, organizationId).out.value, MachineCores)).Some?
      && backend.instant(InstantQuery(ResolveThanosUrl(cache, reg, organizationId).out.value, MachineMemory)).Some?
      && backend.instant(InstantQuery(ResolveThanosUrl(cache, reg, organizationId).out.value, VolumeCapacity)).Some?
    ensures r.0.Ok? ==>
      var endpoint := ResolveThanosUrl(cache, reg, organizationId).out.value;
      r.0.value == Resources.Card(clusters.value,
                                  backend.instant(InstantQuery(endpoint, MachineCores)).value,
                                  backend.instant(InstantQuery(endpoint, MachineMemory)).value,
                                  backend.instant(InstantQuery(endpoint, VolumeCapacity)).value)
    ensures r.0.Err? && ResolveThanosUrl(cache, reg, organizationId).out.Ok? && clusters.Some? ==> r.0 == Err(QueryFailed)
  {
    LookupsOnlyAdd(cache, reg, organizationId, "");
    var url := ResolveThanosUrl(cache, reg, organizationId);
    if url.out.Err? then (Err(InvalidPrimaryStack(url.out.error)), url.cache)
    else if clusters.None? then (Err(ClustersUnavailable), url.cache)
    else
      var cpu := backend.instant(InstantQuery(url.out.value, MachineCores));
      var memory := backend.instant(InstantQuery(url.out.value, MachineMemory));
      var storage := backend.instant(InstantQuery(url.out.value, VolumeCapacity));
      if cpu.None? || memory.None? || storage.None? then (Err(QueryFailed), url.cache)
      else (Ok(Resources.Card(clusters.value, cpu.value, memory.value, storage.value)), url.cache)
  }
}

=== FILE: decimal.dfy ===
/**
 Decimal integers as Go's strconv package writes and reads them on a 64-bit
 platform: `strconv.Itoa` / `fmt.Sprintf("%d")`, `strconv.Atoi` (including
 the value it returns next to an error), and the wrap-around of Go's `int`.
 */
module Decimal {

  const MaxInt64: int := 0x7fff_ffff_ffff_ffff
  const MinInt64: int := -0x8000_0000_0000_0000
  const MaxUint64: int := 0xffff_ffff_ffff_ffff
  const TwoTo64: int := 0x1_0000_0000_0000_0000

  predicate IsDigit(c: char) {
    '0' <= c <= '9'
  }

  predicate AllDigits(s: string) {
    forall i | 0 <= i < |s| :: IsDigit(s[i])
  }

  function DigitValue(c: char): (d: nat)
    requires IsDigit(c)
    ensures d < 10
  {
    (c as int) - ('0' as int)
  }

  function DigitChar(d: nat): (c: char)
    requires d < 10
    ensures IsDigit(c) && DigitValue(c) == d
  {
    (('0' as int) + d) as char
  }

  function Pow10(k: nat): (p: nat)
    ensures p >= 1
  {
    if k == 0 then 1 else 10 * Pow10(k - 1)
  }

  // ---------------------------------------------------------------------
  // Writing: strconv.Itoa

  /** The decimal digits of `n`, most significant first, without leading zeros. */
  function Digits(n: nat): (s: string)
    ensures |s| >= 1 && AllDigits(s)
    ensures |s| > 1 ==> s[0] != '0'
    decreases n
  {
    if n < 10 then [DigitChar(n)] else Digits(n / 10) + [DigitChar(n % 10)]
  }

  /** `strconv.Itoa(n)`: a minus sign for negative numbers, then the digits. */
  function Itoa(n: int): (s: string)
    ensures |s| >= 1
    ensures (s[0] == '-') <==> n < 0
    ensures n >= 0 ==> AllDigits(s)
  {
    if n < 0 then "-" + Digits(-n) else Digits(n)
  }

  /** The number a string of digits denotes, read right to left. */
  function DigitsValue(s: string): nat
    requires AllDigits(s)
  {
    if s == [] then 0 else DigitsValue(s[..|s| - 1]) * 10 + DigitValue(s[|s| - 1])
  }

  lemma {:induction false} DigitsRoundTrip(n: nat)
    ensures DigitsValue(Digits(n)) == n
    decreases n
  {
    if n >= 10 {
      var s := Digits(n);
      assert s[..|s| - 1] == Digits(n / 10);
      DigitsRoundTrip(n / 10);
    }
  }

  /** Different numbers are written differently, so comparing the written
      forms compares the numbers. */
  lemma ItoaInjective(a: int, b: int)
    ensures Itoa(a) == Itoa(b) <==> a == b
  {
    if Itoa(a) == Itoa(b) {
      if a < 0 {
        assert b < 0;
        assert Digits(-a) == Itoa(a)[1..];
        assert Digits(-b) == Itoa(b)[1..];
        DigitsInjective(-a, -b);
      } else {
        assert b >= 0;
        DigitsInjective(a, b);
      }
    }
  }

  lemma DigitsInjective(a: nat, b: nat)
    requires Digits(a) == Digits(b)
    ensures a == b
  {
    DigitsRoundTrip(a);
    DigitsRoundTrip(b);
  }

  // ---------------------------------------------------------------------
  // Reading: strconv.Atoi

  /** What `strconv.Atoi` returns: a value, a syntax error (with value 0), or
      a range error (with the value clamped to the nearest int64 bound). */
  datatype IntParse = Exact(n: int) | SyntaxError | RangeError(clamped: int) {
    /** The integer Go hands back whether or not the error is looked at. */
    function Value(): int {
      match this
      case Exact(n) => n
      case SyntaxError => 0
      case RangeError(c) => c
    }
  }

  datatype UintScan = UintOk(n: nat) | UintSyntax | UintRange

  /** Cut-off above which multiplying the accumulator by ten overflows uint64. */
  const Cutoff: int := MaxUint64 / 10 + 1

  /** The digit loop of `strconv.ParseUint` in base 10, left to right: a
      non-digit is a syntax error, overflow is a range error, and whichever
      comes first is reported. */
  function ScanUint(s: string, n: nat): UintScan
    decreases |s|
  {
    if s == [] then UintOk(n)
    else if !IsDigit(s[0]) then UintSyntax
    else if n >= Cutoff then UintRange
    else
      var n1 := n * 10 + DigitValue(s[0]);
      if n1 > MaxUint64 then UintRange else ScanUint(s[1..], n1)
  }

  function ParseUint(s: string): UintScan {
    if s == [] then UintSyntax else ScanUint(s, 0)
  }

  /** `strconv.Atoi(s)` on a 64-bit platform, i.e. `strconv.ParseInt(s, 10, 0)`. */
  function Atoi(s: string): (r: IntParse)
    ensures r.Exact? ==> MinInt64 <= r.n <= MaxInt64
    ensures r.RangeError? ==> |s| > 0 && r.clamped == (if s[0] == '-' then MinInt64 else MaxInt64)
  {
    if s == [] then SyntaxError
    else
      var neg := s[0] == '-';
      var body := if s[0] == '+' || s[0] == '-' then s[1..] else s;
      match ParseUint(body)
      case UintSyntax => SyntaxError
      case UintRange => RangeError(if neg then MinInt64 else MaxInt64)
      case UintOk(u) =>
        if !neg && u > MaxInt64 then RangeError(MaxInt64)
        else if neg && u > -MinInt64 then RangeError(MinInt64)
        else Exact(if neg then -(u as int) else u)
  }

  /** An optional sign followed by at least one decimal digit. */
  predicate IsIntLiteral(s: string) {
    if |s| > 0 && (s[0] == '+' || s[0] == '-') then |s| > 1 && AllDigits(s[1..])
    else |s| > 0 && AllDigits(s)
  }

  /** The integer an integer literal denotes, with no width limit. */
  function LiteralValue(s: string): int
    requires IsIntLiteral(s)
  {
    if s[0] == '-' then -(DigitsValue(s[1..]) as int)
    else if s[0] == '+' then DigitsValue(s[1..])
    else DigitsValue(s)
  }

  lemma {:induction false} DigitsValueCons(s: string)
    requires |s| > 0 && AllDigits(s)
    ensures DigitsValue(s) == DigitValue(s[0]) * Pow10(|s| - 1) + DigitsValue(s[1..])
    decreases |s|
  {
    if |s| > 1 {
      var init := s[..|s| - 1];
      DigitsValueCons(init);
      assert init[1..] == s[1..][..|s[1..]| - 1];
      assert init[0] == s[0];
      var d := DigitValue(s[0]);
      var p := Pow10(|s| - 2);
      calc {
        DigitsValue(s);
        DigitsValue(init) * 10 + DigitValue(s[|s| - 1]);
        (d * p + DigitsValue(init[1..])) * 10 + DigitValue(s[|s| - 1]);
        { assert (d * p) * 10 == d * (10 * p); }
        d * Pow10(|s| - 1) + (DigitsValue(init[1..]) * 10 + DigitValue(s[|s| - 1]));
      }
    } else {
      assert s[1..] == [];
    }
  }

  /** The scan yields the exact value of the digits read so far, extended by
      the remaining digits, unless that value leaves uint64. */
  lemma {:induction false} ScanUintValue(s: string, n: nat)
    requires AllDigits(s)
    requires n <= MaxUint64
    ensures var total := n * Pow10(|s|) + DigitsValue(s);
      ScanUint(s, n) == if total <= MaxUint64 then UintOk(total) else UintRange
    decreases |s|
  {
    if s == [] {
      assert n * Pow10(0) == n;
    } else {
      var d := DigitValue(s[0]);
      var p := Pow10(|s| - 1);
      var rest := DigitsValue(s[1..]);
      var total := n * Pow10(|s|) + DigitsValue(s);
      assert total == (n * 10 + d) * p + rest by {
        DigitsValueCons(s);
        assert Pow10(|s|) == 10 * p;
        ShiftDigit(n, d, p);
      }
      assert total >= n * 10 + d by {
        ShiftDigit(n, d, p);
      }
      if n >= Cutoff {
        assert ScanUint(s, n) == UintRange;
      } else if n * 10 + d > MaxUint64 {
        assert ScanUint(s, n) == UintRange;
      } else {
        assert ScanUint(s, n) == ScanUint(s[1..], n * 10 + d);
        ScanUintValue(s[1..], n * 10 + d);
      }
    }
  }

  /** Appending digit `d` to accumulator `n` before `p`'s worth of further digits. */
  lemma ShiftDigit(n: nat, d: nat, p: nat)
    requires p >= 1
    ensures n * (10 * p) + d * p == (n * 10 + d) * p
    ensures (n * 10 + d) * p >= n * 10 + d
  {
    var m := n * 10 + d;
    assert m * p == m * (p - 1) + m;
  }

  /** Atoi succeeds exactly on integer literals whose value fits in int64,
      and then returns that value. */
  lemma AtoiExact(s: string)
    ensures Atoi(s).Exact? <==> IsIntLiteral(s) && MinInt64 <= LiteralValue(s) <= MaxInt64
    ensures Atoi(s).Exact? ==> Atoi(s).n == LiteralValue(s)
  {
    if s != [] {
      var body := if s[0] == '+' || s[0] == '-' then s[1..] else s;
      if body != [] && AllDigits(body) {
        ScanUintValue(body, 0);
        assert 0 * Pow10(|body|) == 0;
      } else if body != [] {
        var i :| 0 <= i < |body| && !IsDigit(body[i]);
        ScanHitsNonDigit(body, 0, i);
      }
    }
  }

  /** An integer literal outside int64 is a range error, not a syntax
      error, so Go hands back the bound on its side. (Overflow is reported
      as soon as it happens, so some non-literals are range errors too.) */
  lemma AtoiRange(s: string)
    requires IsIntLiteral(s) && !(MinInt64 <= LiteralValue(s) <= MaxInt64)
    ensures Atoi(s) == RangeError(if s[0] == '-' then MinInt64 else MaxInt64)
  {
    AtoiExact(s);
    var body := if s[0] == '+' || s[0] == '-' then s[1..] else s;
    ScanUintValue(body, 0);
    assert 0 * Pow10(|body|) == 0;
  }

  /** A body that is not all digits never scans to a value. */
  lemma {:induction false} ScanHitsNonDigit(s: string, n: nat, i: int)
    requires 0 <= i < |s| && !IsDigit(s[i])
    ensures !ScanUint(s, n).UintOk?
    decreases |s|
  {
    if i > 0 && IsDigit(s[0]) && n < Cutoff && n * 10 + DigitValue(s[0]) <= MaxUint64 {
      ScanHitsNonDigit(s[1..], n * 10 + DigitValue(s[0]), i - 1);
    }
  }

  /** What Itoa writes, Atoi reads back. */
  lemma AtoiItoa(n: int)
    requires MinInt64 <= n <= MaxInt64
    ensures Atoi(Itoa(n)) == Exact(n)
  {
    var s := Itoa(n);
    DigitsRoundTrip(if n < 0 then -n else n);
    if n < 0 {
      assert s[1..] == Digits(-n);
    }
    AtoiExact(s);
  }

  // ---------------------------------------------------------------------
  // Go's 64-bit int

  /** Two's-complement wrap-around of a mathematical integer into int64. */
  function Wrap64(x: int): (r: int)
    ensures MinInt64 <= r <= MaxInt64
    ensures MinInt64 <= x <= MaxInt64 ==> r == x
    ensures (r - x) % TwoTo64 == 0
  {
    var q := (x - MinInt64) / TwoTo64;
    ModShift(0, q);
    (x - MinInt64) % TwoTo64 + MinInt64
  }

  /** Wrapping after every addition wraps the whole sum once. */
  lemma WrapAdd(a: int, b: int)
    ensures Wrap64(Wrap64(a) + b) == Wrap64(a + b)
  {
    var q := (a - MinInt64) / TwoTo64;
    assert Wrap64(a) == a - q * TwoTo64;
    var x := Wrap64(a) + b - MinInt64;
    assert x == (a + b - MinInt64) - q * TwoTo64;
    ModShift(a + b - MinInt64, q);
  }

  lemma ModShift(x: int, q: int)
    ensures (x - q * TwoTo64) % TwoTo64 == x % TwoTo64
  {
    var y := x - q * TwoTo64;
    var r := x % TwoTo64;
    assert x == (x / TwoTo64) * TwoTo64 + r;
    assert y == (x / TwoTo64 - q) * TwoTo64 + r;
    assert 0 <= r < TwoTo64;
  }
}

=== FILE: metrics.dfy ===
/**
 The metric samples the dashboard receives from the Thanos query API, and the
 floating-point steps the model takes as given.
 */
module Metrics {
  import opened Results
  import Decimal

  /** One point of a range-query series: the float64 Unix timestamp and the
      sample value, which arrives as text. */
  datatype Point = Point(timestamp: real, value: string)

  /** One series of a range query: its `taco_cluster` label and its points. */
  datatype Series = Series(cluster: string, values: seq<Point>)

  /** One sample of an instant query: its `taco_cluster` and `__name__`
      labels and its value as text. */
  datatype Sample = Sample(cluster: string, name: string, value: string)

  /** One named row of a chart (`domain.Unit`). */
  datatype Unit = Unit(name: string, data: seq<string>)

  /** The chart body (`domain.ChartData`): the shared x-axis and the rows. */
  datatype ChartData = ChartData(xAxis: seq<string>, series: seq<Unit>)

  /** Float parsing and fixed-point rendering. Their exact float32/float64
      behaviour is not modelled: the model is parametric in them. */
  datatype FloatOps = FloatOps(
    parseFloat: string -> Option<real>, // strconv.ParseFloat(s, 32)
    formatF: real -> string,            // fmt.Sprintf("%f", y)
    format2f: real -> string)           // fmt.Sprintf("%0.2f", y)
  {
    /** Go's `%0.2f` never renders a number as the empty string. */
    ghost predicate RendersNonEmpty() {
      forall y: real :: format2f(y) != ""
    }
  }

  /** `math.Round`: nearest integer, halves rounded away from zero. */
  function Round(x: real): (r: int)
    ensures -0.5 <= r as real - x <= 0.5
    ensures r as real - x == 0.5 ==> x > 0.0
    ensures x - r as real == 0.5 ==> x < 0.0
  {
    if x >= 0.0 then (x + 0.5).Floor else -((-x + 0.5).Floor)
  }

  /** The x-axis label of a point: `strconv.Itoa(int(math.Round(ts)))`. */
  function XKey(p: Point): string {
    Decimal.Itoa(Round(p.timestamp))
  }
}

=== FILE: resolvers.dfy ===
/**
 The two cached lookups of the dashboard use case: the Thanos endpoint of an
 organization (`getThanosUrl`) and the display name of a cluster
 (`getClusterNameFromId`). Both share one process-wide key/value cache and
 read the repositories and the Kubernetes API, whose answers at the time of
 the request are given as a `Registry`.
 */
module Resolvers {
  import opened Results
  import Decimal

  type Cache = map<string, string>

  const ThanosUrlPrefix: string := "CACHE_KEY_THANOS_URL"
  const ClusterNamePrefix: string := "CACHE_KEY_CLUSTER_NAME_FROM_ID"

  /** Namespace and names of the Thanos query services on the primary cluster. */
  const MetricsNamespace: string := "lma"
  const FrontendService: string := "thanos-query-frontend"
  const QueryService: string := "thanos-query"
  const LoadBalancer: string := "LoadBalancer"

  datatype Organization = Organization(primaryClusterId: string)

  /** Only the DELETED status is told apart by the dashboard. */
  datatype ClusterStatus = Deleted | OtherStatus(code: int)

  datatype Cluster = Cluster(id: string, name: string, status: ClusterStatus)

  datatype ServicePort = ServicePort(port: int, targetPortName: string)

  datatype Service = Service(kind: string, ingressHostnames: seq<string>, ports: seq<ServicePort>)

  datatype ServiceRef = ServiceRef(cluster: string, namespace: string, name: string)

  /** What the organization and cluster repositories and the Kubernetes API
      answer: a missing key is a failed lookup. */
  datatype Registry = Registry(
    organizations: map<string, Organization>,
    clusters: map<string, Cluster>,
    reachable: set<string>,            // clusters a Kubernetes client can be built for
    services: map<ServiceRef, Service>)

  /** The answer of a cached lookup and the cache after it. */
  datatype Lookup = Lookup(out: Result<string>, cache: Cache)

  /** `after` keeps every entry of `before` unchanged: the lookups of this
      use case only ever add entries. */
  ghost predicate Extends(after: Cache, before: Cache) {
    forall k | k in before :: k in after && after[k] == before[k]
  }

  lemma ExtendsTransitive(a: Cache, b: Cache, c: Cache)
    requires Extends(b, a) && Extends(c, b)
    ensures Extends(c, a)
  {
  }

  function ThanosUrlKey(organizationId: string): string {
    ThanosUrlPrefix + organizationId
  }

  function ClusterNameKey(clusterId: string): string {
    ClusterNamePrefix + clusterId
  }

  /** The two resolvers never overwrite each other's entries. */
  lemma KeySpacesDisjoint(organizationId: string, clusterId: string)
    ensures ThanosUrlKey(organizationId) != ClusterNameKey(clusterId)
  {
    assert ThanosUrlKey(organizationId)[10] == 'T';
    assert ClusterNameKey(clusterId)[10] == 'C';
  }

  // ---------------------------------------------------------------------
  // getThanosUrl

  /** The service the endpoint is read from: the query frontend if it
      exists, otherwise the plain query service. */
  function QueryServiceOf(reg: Registry, clusterId: string): (r: Option<Service>)
    ensures r.Some? <==>
      ServiceRef(clusterId, MetricsNamespace, FrontendService) in reg.services
      || ServiceRef(clusterId, MetricsNamespace, QueryService) in reg.services
    ensures ServiceRef(clusterId, MetricsNamespace, FrontendService) in reg.services ==>
      r == Some(reg.services[ServiceRef(clusterId, MetricsNamespace, FrontendService)])
    ensures ServiceRef(clusterId, MetricsNamespace, FrontendService) !in reg.services
            && ServiceRef(clusterId, MetricsNamespace, QueryService) in reg.services ==>
      r == Some(reg.services[ServiceRef(clusterId, MetricsNamespace, QueryService)])
  {
    var frontend := ServiceRef(clusterId, MetricsNamespace, FrontendService);
    var query := ServiceRef(clusterId, MetricsNamespace, QueryService);
    if frontend in reg.services then Some(reg.services[frontend])
    else if query in reg.services then Some(reg.services[query])
    else None
  }

  /** `targetPortScheme://hostname:port` from the first port and first ingress. */
  function EndpointOf(svc: Service): string
    requires |svc.ingressHostnames| > 0 && |svc.ports| > 0
  {
    svc.ports[0].targetPortName + "://" + svc.ingressHostnames[0] + ":"
      + Decimal.Itoa(svc.ports[0].port)
  }

  /** The registry's part of `getThanosUrl`, after a cache miss: an error, no
      endpoint (`None`: the service has no ingress or no port), or one. */
  function FetchThanosUrl(reg: Registry, organizationId: string): (r: Result<Option<string>>)
    ensures r.Ok? <==>
      && organizationId in reg.organizations
      && reg.organizations[organizationId].primaryClusterId != ""
      && reg.organizations[organizationId].primaryClusterId in reg.reachable
      && QueryServiceOf(reg, reg.organizations[organizationId].primaryClusterId).Some?
      && QueryServiceOf(reg, reg.organizations[organizationId].primaryClusterId).value.kind == LoadBalancer
    ensures r.Ok? && r.value.Some? ==>
      var svc := QueryServiceOf(reg, reg.organizations[organizationId].primaryClusterId).value;
      |svc.ingressHostnames| > 0 && |svc.ports| > 0 && r.value.value == EndpointOf(svc)
    ensures r.Ok? && r.value.None? ==>
      var svc := QueryServiceOf(reg, reg.organizations[organizationId].primaryClusterId).value;
      |svc.ingressHostnames| == 0 || |svc.ports| == 0
  {
    if organizationId !in reg.organizations then Err(OrganizationNotFound)
    else
      var primary := reg.organizations[organizationId].primaryClusterId;
      if primary == "" then Err(InvalidPrimaryClusterId)
      else if primary !in reg.reachable then Err(ControlPlaneUnavailable)
      else match QueryServiceOf(reg, primary)
        case None => Err(ServiceNotFound)
        case Some(svc) =>
          if svc.kind != LoadBalancer then Err(NotLoadBalancer(svc.kind))
          else if |svc.ingressHostnames| > 0 && |svc.ports| > 0 then Ok(Some(EndpointOf(svc)))
          else Ok(None)
  }

  /** What `getThanosUrl` returns when the cache holds nothing for the
      organization: the error, the endpoint, or the empty string. */
  function FreshThanosUrl(reg: Registry, organizationId: string): Result<string> {
    match FetchThanosUrl(reg, organizationId)
    case Err(e) => Err(e)
    case Ok(None) => Ok("")
    case Ok(Some(url)) => Ok(url)
  }

  /** `getThanosUrl`: a hit returns the cached endpoint without asking the
      registry; a miss asks it and caches the endpoint only when one was
      composed. */
  function ResolveThanosUrl(cache: Cache, reg: Registry, organizationId: string): (r: Lookup)
    ensures ThanosUrlKey(organizationId) in cache ==>
      r == Lookup(Ok(cache[ThanosUrlKey(organizationId)]), cache)
    ensures ThanosUrlKey(organizationId) !in cache ==>
      r.out == FreshThanosUrl(reg, organizationId)
    ensures r.out.Err? ==> r.cache == cache
    ensures r.cache != cache ==>
      && ThanosUrlKey(organizationId) !in cache
      && FetchThanosUrl(reg, organizationId).Ok?
      && FetchThanosUrl(reg, organizationId).value.Some?
      && r.cache == cache[ThanosUrlKey(organizationId) := r.out.value]
    ensures ThanosUrlKey(organizationId) !in cache
            && FetchThanosUrl(reg, organizationId).Ok? && FetchThanosUrl(reg, organizationId).value.Some? ==>
      r.cache == cache[ThanosUrlKey(organizationId) := FetchThanosUrl(reg, organizationId).value.value]
  {
    var key := ThanosUrlKey(organizationId);
    if key in cache then Lookup(Ok(cache[key]), cache)
    else match FetchThanosUrl(reg, organizationId)
      case Err(e) => Lookup(Err(e), cache)
      case Ok(None) => Lookup(Ok(""), cache)
      case Ok(Some(url)) => Lookup(Ok(url), cache[key := url])
  }

  /** Resolving twice in a row answers the same and leaves the same cache:
      the second call either hits the entry the first wrote or repeats a
      lookup that wrote nothing. */
  lemma ResolveThanosUrlIdempotent(cache: Cache, reg: Registry, organizationId: string)
    ensures var first := ResolveThanosUrl(cache, reg, organizationId);
      ResolveThanosUrl(first.cache, reg, organizationId) == first
  {
    var key := ThanosUrlKey(organizationId);
    var first := ResolveThanosUrl(cache, reg, organizationId);
    if key !in cache {
      match FetchThanosUrl(reg, organizationId)
      case Err(e) =>
      case Ok(None) =>
      case Ok(Some(url)) =>
        assert first.cache[key] == url;
        assert first.cache[key := url] == first.cache;
    }
  }

  /** A cache entry is coherent when it holds what the registry would answer now. */
  ghost predicate UrlCoherent(cache: Cache, reg: Registry, organizationId: string) {
    ThanosUrlKey(organizationId) in cache ==>
      FetchThanosUrl(reg, organizationId) == Ok(Some(cache[ThanosUrlKey(organizationId)]))
  }

  /** While the registry does not change, the cache is invisible: a coherent
      cache gives the answer of a fresh lookup and stays coherent, and TTL
      expiry (deleting any keys) keeps it coherent. */
  lemma CachedUrlIsFresh(cache: Cache, reg: Registry, organizationId: string, expired: set<string>)
    requires UrlCoherent(cache, reg, organizationId)
    ensures ResolveThanosUrl(cache, reg, organizationId).out == FreshThanosUrl(reg, organizationId)
    ensures UrlCoherent(ResolveThanosUrl(cache, reg, organizationId).cache, reg, organizationId)
    ensures UrlCoherent(cache - expired, reg, organizationId)
  {
  }

  // ---------------------------------------------------------------------
  // getClusterNameFromId

  /** `getClusterNameFromId`: a hit returns the cached name; a miss looks the
      cluster up and caches its name, and a failed lookup writes nothing. */
  function ResolveClusterName(cache: Cache, reg: Registry, clusterId: string): (r: Lookup)
    ensures ClusterNameKey(clusterId) in cache ==>
      r == Lookup(Ok(cache[ClusterNameKey(clusterId)]), cache)
    ensures ClusterNameKey(clusterId) !in cache ==>
      if clusterId in reg.clusters
      then r.out == Ok(reg.clusters[clusterId].name)
           && r.cache == cache[ClusterNameKey(clusterId) := reg.clusters[clusterId].name]
      else r == Lookup(Err(ClusterNotFound), cache)
  {
    var key := ClusterNameKey(clusterId);
    if key in cache then Lookup(Ok(cache[key]), cache)
    else if clusterId !in reg.clusters then Lookup(Err(ClusterNotFound), cache)
    else
      var name := reg.clusters[clusterId].name;
      Lookup(Ok(name), cache[key := name])
  }

  /** The label a chart series gets: the resolved name, or the raw cluster id
      when the lookup fails. */
  function SeriesName(cache: Cache, reg: Registry, clusterId: string): (r: (string, Cache))
    ensures ClusterNameKey(clusterId) in cache ==> r == (cache[ClusterNameKey(clusterId)], cache)
    ensures ClusterNameKey(clusterId) !in cache && clusterId in reg.clusters ==>
      r == (reg.clusters[clusterId].name, cache[ClusterNameKey(clusterId) := reg.clusters[clusterId].name])
    ensures ClusterNameKey(clusterId) !in cache && clusterId !in reg.clusters ==> r == (clusterId, cache)
  {
    var r := ResolveClusterName(cache, reg, clusterId);
    (if r.out.Ok? then r.out.value else clusterId, r.cache)
  }

  /** Every cached name is the registry's current name for that cluster. */
  ghost predicate NamesCoherent(cache: Cache, reg: Registry) {
    forall id :: ClusterNameKey(id) in cache ==>
      id in reg.clusters && cache[ClusterNameKey(id)] == reg.clusters[id].name
  }

  lemma ClusterNameKeyInjective(a: string, b: string)
    ensures ClusterNameKey(a) == ClusterNameKey(b) ==> a == b
  {
    if ClusterNameKey(a) == ClusterNameKey(b) {
      assert a == ClusterNameKey(a)[|ClusterNamePrefix|..];
      assert b == ClusterNameKey(b)[|ClusterNamePrefix|..];
    }
  }

  /** With a coherent cache a series is labelled with the registry's name of
      its cluster, or its raw id when the registry does not know it, and the
      cache stays coherent. */
  lemma SeriesNameCoherent(cache: Cache, reg: Registry, clusterId: string)
    requires NamesCoherent(cache, reg)
    ensures SeriesName(cache, reg, clusterId).0 ==
      if clusterId in reg.clusters then reg.clusters[clusterId].name else clusterId
    ensures NamesCoherent(SeriesName(cache, reg, clusterId).1, reg)
  {
    var c' := SeriesName(cache, reg, clusterId).1;
    forall id | ClusterNameKey(id) in c'
      ensures id in reg.clusters && c'[ClusterNameKey(id)] == reg.clusters[id].name
    {
      ClusterNameKeyInjective(id, clusterId);
    }
  }

  /** Looking up a cluster name never changes what the endpoint lookup answers. */
  lemma NameLookupKeepsEndpoint(cache: Cache, reg: Registry, clusterId: string, organizationId: string)
    ensures ResolveThanosUrl(ResolveClusterName(cache, reg, clusterId).cache, reg, organizationId).out
         == ResolveThanosUrl(cache, reg, organizationId).out
  {
    KeySpacesDisjoint(organizationId, clusterId);
  }

  /** `a` and `b` agree on the endpoint entry of the organization. */
  ghost predicate SameEndpointEntry(a: Cache, b: Cache, organizationId: string) {
    && (ThanosUrlKey(organizationId) in a <==> ThanosUrlKey(organizationId) in b)
    && (ThanosUrlKey(organizationId) in a ==> a[ThanosUrlKey(organizationId)] == b[ThanosUrlKey(organizationId)])
  }

  /** The endpoint lookup reads no other entry of the cache. */
  lemma EndpointEntryDecides(a: Cache, b: Cache, reg: Registry, organizationId: string)
    requires SameEndpointEntry(a, b, organizationId)
    ensures ResolveThanosUrl(a, reg, organizationId).out == ResolveThanosUrl(b, reg, organizationId).out
  {
  }

  /** A series label lookup leaves every endpoint entry as it was. */
  lemma SeriesNameKeepsEndpointEntry(cache: Cache, reg: Registry, clusterId: string, organizationId: string)
    ensures SameEndpointEntry(SeriesName(cache, reg, clusterId).1, cache, organizationId)
  {
    KeySpacesDisjoint(organizationId, clusterId);
  }

  /** Neither lookup overwrites or drops an entry, and each writes only its
      own key. */
  lemma LookupsOnlyAdd(cache: Cache, reg: Registry, organizationId: string, clusterId: string)
    ensures Extends(ResolveThanosUrl(cache, reg, organizationId).cache, cache)
    ensures ResolveThanosUrl(cache, reg, organizationId).cache.Keys <= cache.Keys + {ThanosUrlKey(organizationId)}
    ensures Extends(ResolveClusterName(cache, reg, clusterId).cache, cache)
    ensures ResolveClusterName(cache, reg, clusterId).cache.Keys <= cache.Keys + {ClusterNameKey(clusterId)}
  {
  }
}

=== FILE: resources.dfy ===
/**
 The organisation totals of `GetResources`: the number of live stacks, and
 the CPU cores, memory and storage summed over the per-cluster samples of
 three instant queries, with Go's 64-bit `int` arithmetic.
 */
module Resources {
  import opened Metrics
  import Resolvers
  import Decimal
  import Civil

  /** Bytes in a gigabyte as the dashboard counts them (1024³). */
  const GiB: int := 1024 * 1024 * 1024

  /** How a sample is read: as a count (CPU cores) or as bytes shown in GB. */
  datatype Measure = Cores | Bytes

  /** The card of `GetResources` (`domain.DashboardResource`). */
  datatype DashboardResource = DashboardResource(stack: string, cpu: string, memory: string, storage: string)

  // ---------------------------------------------------------------------
  // Stacks

  /** The clusters `funk.Filter` keeps: every one not DELETED, in order. */
  function Live(clusters: seq<Resolvers.Cluster>): (r: seq<Resolvers.Cluster>)
    ensures |r| <= |clusters|
    ensures forall c :: c in r <==> c in clusters && !c.status.Deleted?
    ensures |r| == |clusters| <==> forall k | 0 <= k < |clusters| :: !clusters[k].status.Deleted?
  {
    if clusters == [] then []
    else
      var rest := Live(clusters[1..]);
      assert forall k | 1 <= k < |clusters| :: clusters[k] == clusters[1..][k - 1];
      assert forall c :: c in clusters <==> c == clusters[0] || c in clusters[1..];
      if clusters[0].status.Deleted? then rest else [clusters[0]] + rest
  }

  /** The number of stacks the organisation has. */
  function StackCount(clusters: seq<Resolvers.Cluster>): nat {
    |Live(clusters)|
  }

  /** Filtering keeps order: the live clusters of a concatenation are the
      live clusters of the first part followed by those of the second. */
  lemma {:induction false} LiveAppend(a: seq<Resolvers.Cluster>, b: seq<Resolvers.Cluster>)
    ensures Live(a + b) == Live(a) + Live(b)
    decreases |a|
  {
    if a != [] {
      var c := a[0];
      assert (a + b)[0] == c && (a + b)[1..] == a[1..] + b;
      LiveAppend(a[1..], b);
      if !c.status.Deleted? {
        calc {
          Live(a + b);
          [c] + Live(a[1..] + b);
          [c] + (Live(a[1..]) + Live(b));
          { assert [c] + (Live(a[1..]) + Live(b)) == ([c] + Live(a[1..])) + Live(b); }
          Live(a) + Live(b);
        }
      }
    } else {
      assert a + b == b;
    }
  }

  /** Counting the stacks of two lists of clusters adds up. */
  lemma StackCountAppend(a: seq<Resolvers.Cluster>, b: seq<Resolvers.Cluster>)
    ensures StackCount(a + b) == StackCount(a) + StackCount(b)
  {
    LiveAppend(a, b);
  }

  /** The positions of the clusters that are not DELETED. */
  ghost function LiveIndices(clusters: seq<Resolvers.Cluster>): set<int> {
    set k | 0 <= k < |clusters| && !clusters[k].status.Deleted?
  }

  /** The stack count is the number of clusters whose status is not DELETED. */
  lemma {:induction false} StackCountIsLiveIndices(clusters: seq<Resolvers.Cluster>)
    ensures StackCount(clusters) == |LiveIndices(clusters)|
    decreases |clusters|
  {
    if clusters != [] {
      var n := |clusters| - 1;
      StackCountIsLiveIndices(clusters[..n]);
      StackCountSnoc(clusters);
      LiveIndicesSnoc(clusters);
    } else {
      assert LiveIndices(clusters) == {};
    }
  }

  /** Appending one cluster adds one stack exactly when it is not DELETED. */
  lemma StackCountSnoc(clusters: seq<Resolvers.Cluster>)
    requires clusters != []
    ensures StackCount(clusters) ==
      StackCount(clusters[..|clusters| - 1]) + if clusters[|clusters| - 1].status.Deleted? then 0 else 1
  {
    var n := |clusters| - 1;
    assert clusters == clusters[..n] + [clusters[n]];
    StackCountAppend(clusters[..n], [clusters[n]]);
    assert [clusters[n]][1..] == [];
  }

  /** Appending one cluster adds its position exactly when it is not DELETED. */
  lemma LiveIndicesSnoc(clusters: seq<Resolvers.Cluster>)
    requires clusters != []
    ensures LiveIndices(clusters) ==
      LiveIndices(clusters[..|clusters| - 1]) + if clusters[|clusters| - 1].status.Deleted? then {} else {|clusters| - 1}
  {
  }

  // ---------------------------------------------------------------------
  // Per-sample contributions

  /** A sample is summed when its value is an integer literal that
      `strconv.Atoi` accepts and that is strictly positive. */
  predicate Counts(s: Sample) {
    Decimal.IsIntLiteral(s.value) && 0 < Decimal.LiteralValue(s.value) <= Decimal.MaxInt64
  }

  /** The amount a counted value stands for: cores as they are, bytes in
      whole gigabytes, rounded down. */
  function Scaled(n: nat, m: Measure): nat {
    match m
    case Cores => n
    case Bytes => n / GiB
  }

  /** Euclidean division by `a` and then by `b` is division by `a * b`. */
  lemma DivDiv(n: nat, a: int, b: int)
    requires a > 0 && b > 0
    ensures n / a / b == n / (a * b)
  {
    var q := n / a;
    var r := n % a;
    var q2 := q / b;
    var r2 := q % b;
    assert n == q * a + r;
    assert q == q2 * b + r2;
    Regroup(q2, b, r2, a);
    RemainderBound(r2, b, r, a);
    Civil.DivUnique(n, a * b, q2, r2 * a + r);
  }

  lemma Regroup(q: int, b: int, r: int, a: int)
    ensures (q * b + r) * a == q * (a * b) + r * a
  {
  }

  lemma RemainderBound(r2: int, b: int, r: int, a: int)
    requires 0 <= r2 < b && 0 <= r < a
    ensures 0 <= r2 * a + r < a * b
  {
    assert r2 * a <= (b - 1) * a;
  }

  /** What one sample adds in the loops of `GetResources`: nothing when Atoi
      fails or the value is not positive, otherwise the value, divided by
      1024 three times for memory and storage. */
  function Contribution(s: Sample, m: Measure): (c: nat)
    ensures !Counts(s) ==> c == 0
    ensures Counts(s) ==> c == Scaled(Decimal.LiteralValue(s.value), m)
  {
    Decimal.AtoiExact(s.value);
    match Decimal.Atoi(s.value)
    case Exact(n) =>
      if n <= 0 then 0
      else if m == Cores then n
      else
        DivDiv(n, 1024, 1024);
        DivDiv(n, 1024 * 1024, 1024);
        n / 1024 / 1024 / 1024
    case _ => 0
  }

  // ---------------------------------------------------------------------
  // Totals

  /** What each sample of a query result adds, in order. */
  function Amounts(samples: seq<Sample>, m: Measure): (r: seq<nat>)
    ensures |r| == |samples|
    ensures forall k | 0 <= k < |samples| :: r[k] == Contribution(samples[k], m)
  {
    seq(|samples|, k requires 0 <= k < |samples| => Contribution(samples[k], m))
  }

  /** The running total of a `GetResources` loop: after each amount the
      64-bit `int` accumulator adds it and wraps. */
  function Total(amounts: seq<nat>): int {
    if amounts == [] then 0
    else Decimal.Wrap64(Total(amounts[..|amounts| - 1]) + amounts[|amounts| - 1])
  }

  /** The same total without a width limit. */
  function Sum(amounts: seq<nat>): nat {
    if amounts == [] then 0 else amounts[0] + Sum(amounts[1..])
  }

  lemma {:induction false} SumSnoc(amounts: seq<nat>)
    requires amounts != []
    ensures Sum(amounts) == Sum(amounts[..|amounts| - 1]) + amounts[|amounts| - 1]
    decreases |amounts|
  {
    if |amounts| > 1 {
      var init := amounts[..|amounts| - 1];
      assert amounts[1..][..|amounts[1..]| - 1] == init[1..];
      SumSnoc(amounts[1..]);
    }
  }

  /** One loop step keeps the accumulator equal to the wrapped true sum. */
  lemma WrapFoldStep(t: int, s: int, c: int)
    requires t == Decimal.Wrap64(s)
    ensures Decimal.Wrap64(t + c) == Decimal.Wrap64(s + c)
  {
    Decimal.WrapAdd(s, c);
  }

  /** The loop computes the true sum wrapped once into int64, and exactly the
      true sum when that fits. */
  lemma {:induction false} TotalIsWrappedSum(amounts: seq<nat>)
    ensures Total(amounts) == Decimal.Wrap64(Sum(amounts))
    ensures Sum(amounts) <= Decimal.MaxInt64 ==> Total(amounts) == Sum(amounts)
    decreases |amounts|
  {
    if amounts != [] {
      var init := amounts[..|amounts| - 1];
      TotalIsWrappedSum(init);
      SumSnoc(amounts);
      WrapFoldStep(Total(init), Sum(init), amounts[|amounts| - 1]);
    }
  }

  /** Samples that are not counted leave the total alone. */
  lemma UncountedAreIgnored(samples: seq<Sample>, m: Measure)
    requires forall k | 0 <= k < |samples| :: !Counts(samples[k])
    ensures Total(Amounts(samples, m)) == 0
  {
    var amounts := Amounts(samples, m);
    assert forall k | 0 <= k < |amounts| :: amounts[k] == 0;
    ZeroAmounts(amounts);
  }

  lemma {:induction false} ZeroAmounts(amounts: seq<nat>)
    requires forall k | 0 <= k < |amounts| :: amounts[k] == 0
    ensures Total(amounts) == 0
    decreases |amounts|
  {
    if amounts != [] {
      ZeroAmounts(amounts[..|amounts| - 1]);
    }
  }

  // ---------------------------------------------------------------------
  // Rendering

  /** `fmt.Sprintf("%d 개", n)`. */
  function CountText(n: int): (s: string)
    ensures |s| > 2 && s[|s| - 2..] == " 개"
  {
    Decimal.Itoa(n) + " 개"
  }

  /** `fmt.Sprintf("%d GB", n)`. */
  function GigabyteText(n: int): (s: string)
    ensures |s| > 3 && s[|s| - 3..] == " GB"
  {
    Decimal.Itoa(n) + " GB"
  }

  /** The number in front of the unit reads back as the number. */
  lemma TextsReadBack(n: int)
    requires Decimal.MinInt64 <= n <= Decimal.MaxInt64
    ensures Decimal.Atoi(CountText(n)[..|CountText(n)| - 2]) == Decimal.Exact(n)
    ensures Decimal.Atoi(GigabyteText(n)[..|GigabyteText(n)| - 3]) == Decimal.Exact(n)
  {
    assert CountText(n)[..|CountText(n)| - 2] == Decimal.Itoa(n);
    assert GigabyteText(n)[..|GigabyteText(n)| - 3] == Decimal.Itoa(n);
    Decimal.AtoiItoa(n);
  }

  /** The card once every query has answered. */
  function Card(clusters: seq<Resolvers.Cluster>, cpu: seq<Sample>, memory: seq<Sample>, storage: seq<Sample>)
    : (r: DashboardResource)
    ensures r.stack == CountText(StackCount(clusters))
    ensures r.cpu == CountText(Decimal.Wrap64(Sum(Amounts(cpu, Cores))))
    ensures r.memory == GigabyteText(Decimal.Wrap64(Sum(Amounts(memory, Bytes))))
    ensures r.storage == GigabyteText(Decimal.Wrap64(Sum(Amounts(storage, Bytes))))
  {
    var cores, bytes, volumes := Amounts(cpu, Cores), Amounts(memory, Bytes), Amounts(storage, Bytes);
    TotalIsWrappedSum(cores);
    TotalIsWrappedSum(bytes);
    TotalIsWrappedSum(volumes);
    DashboardResource(CountText(StackCount(clusters)), CountText(Total(cores)),
                      GigabyteText(Total(bytes)), GigabyteText(Total(volumes)))
  }

  // ---------------------------------------------------------------------
  // Examples

  /** Two clusters with 32 and 12 cores, one negative reading and one that
      does not parse: 44 cores. */
  lemma CoresExample()
    ensures Total(Amounts([Sample("a", "", "32"), Sample("b", "", "12"), Sample("c", "", "-5"), Sample("d", "", "abc")], Cores)) == 44
  {
    var s := [Sample("a", "", "32"), Sample("b", "", "12"), Sample("c", "", "-5"), Sample("d", "", "abc")];
    assert Decimal.LiteralValue("32") == 32 by {
      assert Decimal.DigitsValue("32") == Decimal.DigitsValue("3") * 10 + 2;
    }
    assert Decimal.LiteralValue("12") == 12 by {
      assert Decimal.DigitsValue("12") == Decimal.DigitsValue("1") * 10 + 2;
    }
    assert !Counts(s[3]) by {
      assert !Decimal.IsDigit('a');
    }
    var amounts := Amounts(s, Cores);
    assert amounts == [32, 12, 0, 0];
    assert amounts[1..][1..][1..][1..] == [];
    TotalIsWrappedSum(amounts);
  }

  /** Gigabytes are rounded down per cluster before summing: two clusters of
      half a gigabyte each show 0 GB, although together they hold 1 GB. */
  lemma TruncatedPerCluster(half: Sample)
    requires Counts(half) && Decimal.LiteralValue(half.value) == GiB / 2
    ensures Total(Amounts([half, half], Bytes)) == 0
    ensures Contribution(half, Cores) + Contribution(half, Cores) == GiB
  {
    var amounts := Amounts([half, half], Bytes);
    assert amounts == [0, 0];
    ZeroAmounts(amounts);
  }
}

=== FILE: results.dfy ===
/**
 Failure-carrying values shared by every part of the dashboard model: an
 optional value, and a result that is either a value or one of the errors the
 dashboard use case returns to its caller.
 */
module Results {

  datatype Option<+T> = None | Some(value: T)

  /** The error conditions the dashboard use case distinguishes. */
  datatype Error =
    | OrganizationNotFound              // organization repository lookup failed
    | InvalidPrimaryClusterId           // the organization has no primary cluster
    | ControlPlaneUnavailable           // no Kubernetes client for the primary cluster
    | ServiceNotFound                   // neither metrics query service exists
    | NotLoadBalancer(kind: string)     // the service is not of type LoadBalancer
    | ClusterNotFound                   // cluster repository lookup failed
    | InvalidPrimaryStack(cause: Error) // endpoint resolution failed, surfaced as an internal error
    | ClustersUnavailable               // clusters of the organization could not be listed
    | AppGroupsUnavailable              // application groups of a cluster could not be listed
    | QueryFailed                       // the metrics backend or alert store did not answer
    | InvalidYear                       // the requested year lies in the future
    | InvalidMonth                      // the requested month of this year lies in the future
    | NoData                            // the chart type is not one the use case knows

  datatype Result<+T> = Ok(value: T) | Err(error: Error)
}

=== FILE: series.dfy ===
/**
 The generic branch of `getChartFromPrometheus`: the series of a range query
 are laid on one shared x-axis, the union of their rounded timestamps in the
 order they are first seen, and every series gets one cell per axis entry,
 found by exact lookup (`getChartYValue`).
 */
module SeriesAligner {
  import opened Results
  import opened Metrics
  import opened Resolvers

  // ---------------------------------------------------------------------
  // The shared x-axis

  /** The x-axis labels of a series' points, in order. */
  function Keys(values: seq<Point>): (ks: seq<string>)
    ensures |ks| == |values|
    ensures forall k | 0 <= k < |values| :: ks[k] == XKey(values[k])
  {
    seq(|values|, k requires 0 <= k < |values| => XKey(values[k]))
  }

  /** The labels of all points of all series, series after series. */
  function Flatten(results: seq<Series>): seq<string> {
    if results == [] then []
    else Flatten(results[..|results| - 1]) + Keys(results[|results| - 1].values)
  }

  function AppendNew(acc: seq<string>, x: string): seq<string> {
    if x in acc then acc else acc + [x]
  }

  /** `xs` with every repeat of an earlier element dropped. */
  function Dedup(xs: seq<string>): seq<string> {
    if xs == [] then [] else AppendNew(Dedup(xs[..|xs| - 1]), xs[|xs| - 1])
  }

  /** The shared x-axis of a range query result. */
  function SharedXAxis(results: seq<Series>): seq<string> {
    Dedup(Flatten(results))
  }

  ghost predicate NoDuplicates(xs: seq<string>) {
    forall i, j | 0 <= i < j < |xs| :: xs[i] != xs[j]
  }

  /** Position of the first occurrence of `x` in `xs`. */
  function FirstIndex(xs: seq<string>, x: string): (i: nat)
    requires x in xs
    ensures i < |xs| && xs[i] == x
    ensures forall j | 0 <= j < i :: xs[j] != x
  {
    var init := xs[..|xs| - 1];
    if x in init then FirstIndex(init, x) else |xs| - 1
  }

  /** Dedup keeps exactly the elements of its input, once each, in the order
      of their first occurrences. */
  lemma {:induction false} DedupSpec(xs: seq<string>)
    ensures NoDuplicates(Dedup(xs))
    ensures forall x :: x in Dedup(xs) <==> x in xs
    ensures forall i, j | 0 <= i < j < |Dedup(xs)| ::
      FirstIndex(xs, Dedup(xs)[i]) < FirstIndex(xs, Dedup(xs)[j])
  {
    if xs != [] {
      var init := xs[..|xs| - 1];
      var y := xs[|xs| - 1];
      DedupSpec(init);
      var d := Dedup(init);
      assert xs == init + [y];
      forall x | x in init
        ensures FirstIndex(xs, x) == FirstIndex(init, x)
      {
      }
      if y !in d {
        assert Dedup(xs) == d + [y];
        forall i | 0 <= i < |d|
          ensures FirstIndex(xs, d[i]) < FirstIndex(xs, y)
        {
          assert d[i] in init;
        }
      }
    }
  }

  /** A sequence without repeats has as many elements as distinct values. */
  lemma {:induction false} DistinctCount(xs: seq<string>)
    requires NoDuplicates(xs)
    ensures |set x | x in xs| == |xs|
  {
    if xs != [] {
      var init := xs[..|xs| - 1];
      var y := xs[|xs| - 1];
      assert xs == init + [y];
      DistinctCount(init);
      assert (set x | x in xs) == (set x | x in init) + {y};
    }
  }

  /** A label is in the flattened result exactly when some point has it. */
  lemma {:induction false} FlattenMembers(results: seq<Series>, x: string)
    ensures x in Flatten(results) <==>
      exists i, k | 0 <= i < |results| && 0 <= k < |results[i].values| :: XKey(results[i].values[k]) == x
  {
    if results != [] {
      var init := results[..|results| - 1];
      var last := results[|results| - 1];
      FlattenMembers(init, x);
      if x in Keys(last.values) {
        var k :| 0 <= k < |last.values| && Keys(last.values)[k] == x;
        assert XKey(results[|results| - 1].values[k]) == x;
      }
      if exists i, k | 0 <= i < |results| && 0 <= k < |results[i].values| :: XKey(results[i].values[k]) == x {
        var i, k :| 0 <= i < |results| && 0 <= k < |results[i].values| && XKey(results[i].values[k]) == x;
        if i < |init| {
          assert init[i] == results[i];
        } else {
          assert Keys(last.values)[k] == x;
        }
      }
    }
  }

  /** The shared x-axis has no repeats, holds every point's label and only
      those, in first-seen order; its length is the number of distinct
      labels. */
  lemma SharedXAxisSpec(results: seq<Series>)
    ensures NoDuplicates(SharedXAxis(results))
    ensures forall i, k | 0 <= i < |results| && 0 <= k < |results[i].values| ::
      XKey(results[i].values[k]) in SharedXAxis(results)
    ensures forall x | x in SharedXAxis(results) ::
      exists i, k | 0 <= i < |results| && 0 <= k < |results[i].values| :: XKey(results[i].values[k]) == x
    ensures forall x :: x in SharedXAxis(results) <==> x in Flatten(results)
    ensures forall i, j | 0 <= i < j < |SharedXAxis(results)| ::
      FirstIndex(Flatten(results), SharedXAxis(results)[i]) < FirstIndex(Flatten(results), SharedXAxis(results)[j])
    ensures |SharedXAxis(results)| == |set x | x in Flatten(results)|
  {
    var flat := Flatten(results);
    DedupSpec(flat);
    DistinctCount(Dedup(flat));
    assert (set x | x in Dedup(flat)) == (set x | x in flat);
    forall i, k | 0 <= i < |results| && 0 <= k < |results[i].values|
      ensures XKey(results[i].values[k]) in SharedXAxis(results)
    {
      FlattenMembers(results, XKey(results[i].values[k]));
    }
    forall x | x in SharedXAxis(results)
      ensures exists i, k | 0 <= i < |results| && 0 <= k < |results[i].values| :: XKey(results[i].values[k]) == x
    {
      FlattenMembers(results, x);
    }
  }

  /** One more point's label extends the deduplicated prefix by `AppendNew`. */
  lemma AxisStep(prefix: seq<string>, values: seq<Point>, k: int)
    requires 0 <= k < |values|
    ensures Dedup(prefix + Keys(values[..k + 1]))
         == AppendNew(Dedup(prefix + Keys(values[..k])), XKey(values[k]))
  {
    var before := prefix + Keys(values[..k]);
    assert Keys(values[..k + 1]) == Keys(values[..k]) + [XKey(values[k])];
    assert prefix + Keys(values[..k + 1]) == before + [XKey(values[k])];
    assert (before + [XKey(values[k])])[..|before|] == before;
  }

  /** One more series appends its labels to the flattened prefix. */
  lemma FlattenStep(results: seq<Series>, i: int)
    requires 0 <= i < |results|
    ensures Flatten(results[..i + 1]) == Flatten(results[..i]) + Keys(results[i].values[..|results[i].values|])
  {
    assert results[..i + 1][..i] == results[..i];
    assert results[i].values[..|results[i].values|] == results[i].values;
  }

  /** The x-axis loop of `getChartFromPrometheus`: every point's label is
      appended unless the axis already holds it. */
  method BuildXAxis(results: seq<Series>) returns (xs: seq<string>)
    ensures xs == SharedXAxis(results)
  {
    xs := [];
    for i := 0 to |results|
      invariant xs == Dedup(Flatten(results[..i]))
    {
      var values := results[i].values;
      assert Flatten(results[..i]) + Keys(values[..0]) == Flatten(results[..i]);
      for k := 0 to |values|
        invariant xs == Dedup(Flatten(results[..i]) + Keys(values[..k]))
      {
        var x := XKey(values[k]);
        AxisStep(Flatten(results[..i]), values, k);
        if x !in xs {
          xs := xs + [x];
        }
      }
      FlattenStep(results, i);
    }
    assert results[..|results|] == results;
  }

  // ---------------------------------------------------------------------
  // Cells: getChartYValue

  /** The value a cell shows: times 100 for percentage charts. */
  function Scale(y: real, percentage: bool): real {
    if percentage then y * 100.0 else y
  }

  /** The scan of `getChartYValue` moves past a point whose value parses and
      whose label is not the one looked for. */
  predicate Passes(p: Point, x: string, ops: FloatOps) {
    ops.parseFloat(p.value).Some? && XKey(p) != x
  }

  predicate AllPass(values: seq<Point>, x: string, ops: FloatOps) {
    forall j | 0 <= j < |values| :: Passes(values[j], x, ops)
  }

  /** The cell a point that stops the scan yields: empty if its value does
      not parse, otherwise its rendered (scaled) value. */
  function StopCell(p: Point, percentage: bool, ops: FloatOps): string {
    match ops.parseFloat(p.value)
    case None => ""
    case Some(y) => ops.formatF(Scale(y, percentage))
  }

  /** `getChartYValue`: the cell of one series at x-axis label `x`. */
  function ChartYValue(values: seq<Point>, x: string, percentage: bool, ops: FloatOps): (r: string)
    ensures AllPass(values, x, ops) ==> r == ""
    ensures forall k | 0 <= k < |values| && AllPass(values[..k], x, ops) && !Passes(values[k], x, ops) ::
      r == StopCell(values[k], percentage, ops)
    ensures (forall k | 0 <= k < |values| :: XKey(values[k]) != x) ==> r == ""
    decreases |values|
  {
    if values == [] then ""
    else match ops.parseFloat(values[0].value)
      case None => ""
      case Some(y) =>
        if XKey(values[0]) == x then ops.formatF(Scale(y, percentage))
        else
          var r := ChartYValue(values[1..], x, percentage, ops);
          assert forall k | 1 <= k < |values| :: values[..k][1..] == values[1..][..k - 1];
          r
  }

  /** One series' cells, one per x-axis label. */
  function Row(values: seq<Point>, xAxis: seq<string>, percentage: bool, ops: FloatOps): (row: seq<string>)
    ensures |row| == |xAxis|
    ensures forall j | 0 <= j < |xAxis| :: row[j] == ChartYValue(values, xAxis[j], percentage, ops)
  {
    seq(|xAxis|, j requires 0 <= j < |xAxis| => ChartYValue(values, xAxis[j], percentage, ops))
  }

  // ---------------------------------------------------------------------
  // Series labels and the assembled chart

  /** The labels of the series, resolved one after another through the
      name cache. */
  function SeriesLabels(cache: Cache, reg: Registry, results: seq<Series>): (r: (seq<string>, Cache))
    ensures |r.0| == |results|
  {
    if results == [] then ([], cache)
    else
      var (names, c) := SeriesLabels(cache, reg, results[..|results| - 1]);
      var (name, c') := SeriesName(c, reg, results[|results| - 1].cluster);
      (names + [name], c')
  }

  /** With a coherent name cache every series is labelled by its cluster's
      registered name, or by the raw cluster id when the cluster is unknown. */
  lemma {:induction false} SeriesLabelsCoherent(cache: Cache, reg: Registry, results: seq<Series>)
    requires NamesCoherent(cache, reg)
    ensures NamesCoherent(SeriesLabels(cache, reg, results).1, reg)
    ensures forall i | 0 <= i < |results| ::
      SeriesLabels(cache, reg, results).0[i] ==
        (if results[i].cluster in reg.clusters then reg.clusters[results[i].cluster].name else results[i].cluster)
  {
    if results != [] {
      var init := results[..|results| - 1];
      SeriesLabelsCoherent(cache, reg, init);
      var (names, c) := SeriesLabels(cache, reg, init);
      SeriesNameCoherent(c, reg, results[|results| - 1].cluster);
    }
  }

  /** Labelling the series only adds name entries to the cache. */
  lemma {:induction false} SeriesLabelsOnlyAdd(cache: Cache, reg: Registry, results: seq<Series>)
    ensures Extends(SeriesLabels(cache, reg, results).1, cache)
  {
    if results != [] {
      var init := results[..|results| - 1];
      SeriesLabelsOnlyAdd(cache, reg, init);
      var (names, c) := SeriesLabels(cache, reg, init);
      LookupsOnlyAdd(c, reg, "", results[|results| - 1].cluster);
      ExtendsTransitive(cache, c, SeriesLabels(cache, reg, results).1);
    }
  }

  /** Labelling the series never changes an endpoint entry of the cache. */
  lemma {:induction false} SeriesLabelsKeepEndpointEntry(cache: Cache, reg: Registry, results: seq<Series>, organizationId: string)
    ensures SameEndpointEntry(SeriesLabels(cache, reg, results).1, cache, organizationId)
  {
    if results != [] {
      var init := results[..|results| - 1];
      SeriesLabelsKeepEndpointEntry(cache, reg, init, organizationId);
      var (names, c) := SeriesLabels(cache, reg, init);
      SeriesNameKeepsEndpointEntry(c, reg, results[|results| - 1].cluster, organizationId);
    }
  }

  /** The chart of a range query result: the shared axis, and per series its
      label and its row; the name cache after the lookups. */
  function AlignedChart(results: seq<Series>, percentage: bool, ops: FloatOps, cache: Cache, reg: Registry)
    : (r: (ChartData, Cache))
    ensures r.0.xAxis == SharedXAxis(results)
    ensures |r.0.series| == |results|
    ensures forall i | 0 <= i < |results| ::
      |r.0.series[i].data| == |r.0.xAxis|
      && forall j | 0 <= j < |r.0.xAxis| ::
           r.0.series[i].data[j] == ChartYValue(results[i].values, r.0.xAxis[j], percentage, ops)
    ensures forall i | 0 <= i < |results| :: r.0.series[i].name == SeriesLabels(cache, reg, results).0[i]
    ensures r.1 == SeriesLabels(cache, reg, results).1
    ensures Extends(r.1, cache)
  {
    SeriesLabelsOnlyAdd(cache, reg, results);
    var xAxis := SharedXAxis(results);
    var (names, cache') := SeriesLabels(cache, reg, results);
    var series := seq(|results|, i requires 0 <= i < |results| =>
      Unit(names[i], Row(results[i].values, xAxis, percentage, ops)));
    (ChartData(xAxis, series), cache')
  }

  /** A cell is empty whenever no point of its series carries the cell's
      x-axis label: gaps are "" and never a zero. */
  lemma GapsAreEmpty(results: seq<Series>, percentage: bool, ops: FloatOps, cache: Cache, reg: Registry, i: int, j: int)
    requires 0 <= i < |results|
    requires 0 <= j < |SharedXAxis(results)|
    requires forall k | 0 <= k < |results[i].values| :: XKey(results[i].values[k]) != SharedXAxis(results)[j]
    ensures AlignedChart(results, percentage, ops, cache, reg).0.series[i].data[j] == ""
  {
  }

  /** With a coherent name cache each row is named after its cluster as the
      registry knows it, or by its raw id, and the cache stays coherent. */
  lemma ChartLabels(results: seq<Series>, percentage: bool, ops: FloatOps, cache: Cache, reg: Registry)
    requires NamesCoherent(cache, reg)
    ensures NamesCoherent(AlignedChart(results, percentage, ops, cache, reg).1, reg)
    ensures forall i | 0 <= i < |results| ::
      AlignedChart(results, percentage, ops, cache, reg).0.series[i].name ==
        (if results[i].cluster in reg.clusters then reg.clusters[results[i].cluster].name else results[i].cluster)
  {
    SeriesLabelsCoherent(cache, reg, results);
  }
}

=== FILE: utilization.dfy ===
/**
 Per-stack utilisation for the stack cards (`getStackMemoryDisk`,
 `getStackCpu` and the " %" suffix applied in `GetStacks`): memory and disk
 percentages derived from byte counts with a zero guard, and the CPU figure
 passed through.
 */
module Utilization {
  import opened Results
  import opened Metrics
  import Decimal

  const MemFreeMetric: string := "node_memory_MemFree_bytes"
  const MachineMemoryMetric: string := "machine_memory_bytes"
  const VolumeUsedMetric: string := "kubelet_volume_stats_used_bytes"
  const VolumeCapacityMetric: string := "kubelet_volume_stats_capacity_bytes"

  predicate Matches(s: Sample, clusterId: string, metric: string) {
    s.cluster == clusterId && s.name == metric
  }

  /** The position of the last sample of the cluster with that metric name. */
  function LastMatch(result: seq<Sample>, clusterId: string, metric: string): (r: Option<nat>)
    ensures r.None? <==> forall k | 0 <= k < |result| :: !Matches(result[k], clusterId, metric)
    ensures r.Some? ==>
      && r.value < |result| && Matches(result[r.value], clusterId, metric)
      && forall j | r.value < j < |result| :: !Matches(result[j], clusterId, metric)
  {
    if result == [] then None
    else if Matches(result[|result| - 1], clusterId, metric) then Some(|result| - 1)
    else
      var r := LastMatch(result[..|result| - 1], clusterId, metric);
      assert forall k | 0 <= k < |result| - 1 :: result[..|result| - 1][k] == result[k];
      r
  }

  /** The byte count the loop of `getStackMemoryDisk` ends with for `metric`:
      the value of the last sample of the cluster with that name, read by
      `strconv.Atoi` with its error ignored; 0 when there is none. */
  function LastReading(result: seq<Sample>, clusterId: string, metric: string): (r: int)
    ensures (forall k | 0 <= k < |result| :: !Matches(result[k], clusterId, metric)) ==> r == 0
    ensures forall k | 0 <= k < |result| && Matches(result[k], clusterId, metric) &&
                       (forall j | k < j < |result| :: !Matches(result[j], clusterId, metric)) ::
      r == Decimal.Atoi(result[k].value).Value()
  {
    match LastMatch(result, clusterId, metric)
    case None => 0
    case Some(k) => Decimal.Atoi(result[k].value).Value()
  }

  /** Reading one more sample: a match replaces the reading, anything else
      keeps it. */
  lemma LastReadingStep(result: seq<Sample>, i: int, clusterId: string, metric: string)
    requires 0 <= i < |result|
    ensures LastReading(result[..i + 1], clusterId, metric) ==
      if Matches(result[i], clusterId, metric) then Decimal.Atoi(result[i].value).Value()
      else LastReading(result[..i], clusterId, metric)
  {
    assert result[..i + 1][..i] == result[..i];
    assert result[..i + 1][i] == result[i];
  }

  /** Memory in use as a percentage of the machine's memory. */
  function MemoryPercent(free: int, machine: int): real
    requires machine > 0
  {
    (1.0 - (free as real) / (machine as real)) * 100.0
  }

  /** Disk in use as a percentage of the volume capacity. */
  function DiskPercent(used: int, capacity: int): real
    requires capacity > 0
  {
    (used as real) / (capacity as real) * 100.0
  }

  /** The memory text of a stack: "" unless the machine reports a positive
      byte count. */
  function MemoryText(free: int, machine: int, ops: FloatOps): (r: string)
    ensures machine <= 0 ==> r == ""
    ensures machine > 0 ==> r == ops.format2f(MemoryPercent(free, machine))
  {
    if machine > 0 then ops.format2f(MemoryPercent(free, machine)) else ""
  }

  /** The disk text of a stack: "" unless the capacity is positive. */
  function DiskText(used: int, capacity: int, ops: FloatOps): (r: string)
    ensures capacity <= 0 ==> r == ""
    ensures capacity > 0 ==> r == ops.format2f(DiskPercent(used, capacity))
  {
    if capacity > 0 then ops.format2f(DiskPercent(used, capacity)) else ""
  }

  /** `getStackMemoryDisk` as a function of the last readings. */
  function MemoryDisk(result: seq<Sample>, clusterId: string, ops: FloatOps): (string, string) {
    (MemoryText(LastReading(result, clusterId, MemFreeMetric), LastReading(result, clusterId, MachineMemoryMetric), ops),
     DiskText(LastReading(result, clusterId, VolumeUsedMetric), LastReading(result, clusterId, VolumeCapacityMetric), ops))
  }

  /** The loop of `getStackMemoryDisk`: every sample of the cluster overwrites
      the reading of its metric. */
  method StackMemoryDisk(result: seq<Sample>, clusterId: string, ops: FloatOps) returns (memory: string, disk: string)
    ensures (memory, disk) == MemoryDisk(result, clusterId, ops)
    ensures LastReading(result, clusterId, MachineMemoryMetric) <= 0 ==> memory == ""
    ensures LastReading(result, clusterId, VolumeCapacityMetric) <= 0 ==> disk == ""
  {
    var free, machine, used, capacity := 0, 0, 0, 0;
    for i := 0 to |result|
      invariant free == LastReading(result[..i], clusterId, MemFreeMetric)
      invariant machine == LastReading(result[..i], clusterId, MachineMemoryMetric)
      invariant used == LastReading(result[..i], clusterId, VolumeUsedMetric)
      invariant capacity == LastReading(result[..i], clusterId, VolumeCapacityMetric)
    {
      var s := result[i];
      LastReadingStep(result, i, clusterId, MemFreeMetric);
      LastReadingStep(result, i, clusterId, MachineMemoryMetric);
      LastReadingStep(result, i, clusterId, VolumeUsedMetric);
      LastReadingStep(result, i, clusterId, VolumeCapacityMetric);
      if s.cluster == clusterId {
        if s.name == MemFreeMetric {
          free := Decimal.Atoi(s.value).Value();
        } else if s.name == MachineMemoryMetric {
          machine := Decimal.Atoi(s.value).Value();
        }
        if s.name == VolumeUsedMetric {
          used := Decimal.Atoi(s.value).Value();
        } else if s.name == VolumeCapacityMetric {
          capacity := Decimal.Atoi(s.value).Value();
        }
      }
    }
    assert result[..|result|] == result;
    memory := MemoryText(free, machine, ops);
    disk := DiskText(used, capacity, ops);
  }

  /** `getStackCpu`: the first sample of the cluster decides; its value
      rendered with two decimals, or "" when it does not parse. */
  function StackCpu(result: seq<Sample>, clusterId: string, ops: FloatOps): (r: string)
    ensures (forall k | 0 <= k < |result| :: result[k].cluster != clusterId) ==> r == ""
    ensures forall k | 0 <= k < |result| && result[k].cluster == clusterId &&
                       (forall j | 0 <= j < k :: result[j].cluster != clusterId) ::
      r == (match ops.parseFloat(result[k].value)
            case Some(v) => ops.format2f(v)
            case None => "")
  {
    if result == [] then ""
    else if result[0].cluster == clusterId then
      match ops.parseFloat(result[0].value)
      case Some(v) => ops.format2f(v)
      case None => ""
    else
      var r := StackCpu(result[1..], clusterId, ops);
      assert forall k | 1 <= k < |result| :: result[k] == result[1..][k - 1];
      r
  }

  /** The " %" suffix `GetStacks` puts on a non-empty figure. */
  function WithPercentSign(v: string): (r: string)
    ensures r == "" <==> v == ""
    ensures v != "" ==> |r| == |v| + 2 && r[..|v|] == v && r[|v|..] == " %"
  {
    if v != "" then v + " %" else ""
  }

  /** The three figures of a stack card. */
  datatype StackUsage = StackUsage(cpu: string, memory: string, storage: string)

  /** The figures `GetStacks` puts on the card of one cluster. */
  function UsageOf(memoryDisk: seq<Sample>, cpu: seq<Sample>, clusterId: string, ops: FloatOps): (u: StackUsage)
    ensures ops.RendersNonEmpty() ==>
      (u.memory != "" <==> LastReading(memoryDisk, clusterId, MachineMemoryMetric) > 0)
    ensures ops.RendersNonEmpty() ==>
      (u.storage != "" <==> LastReading(memoryDisk, clusterId, VolumeCapacityMetric) > 0)
    ensures LastReading(memoryDisk, clusterId, MachineMemoryMetric) <= 0 ==> u.memory == ""
    ensures LastReading(memoryDisk, clusterId, MachineMemoryMetric) > 0 ==>
      u.memory == WithPercentSign(ops.format2f(MemoryPercent(
        LastReading(memoryDisk, clusterId, MemFreeMetric), LastReading(memoryDisk, clusterId, MachineMemoryMetric))))
    ensures LastReading(memoryDisk, clusterId, VolumeCapacityMetric) <= 0 ==> u.storage == ""
    ensures LastReading(memoryDisk, clusterId, VolumeCapacityMetric) > 0 ==>
      u.storage == WithPercentSign(ops.format2f(DiskPercent(
        LastReading(memoryDisk, clusterId, VolumeUsedMetric), LastReading(memoryDisk, clusterId, VolumeCapacityMetric))))
    ensures u.cpu == WithPercentSign(StackCpu(cpu, clusterId, ops))
  {
    var (memory, disk) := MemoryDisk(memoryDisk, clusterId, ops);
    StackUsage(WithPercentSign(StackCpu(cpu, clusterId, ops)), WithPercentSign(memory), WithPercentSign(disk))
  }

  /** The worked example: 2 bytes free of 10 is 80 percent in use. */
  lemma MemoryExample()
    ensures MemoryPercent(2, 10) == 80.0
  {
  }
}
